=== FILE: README.md ===
# PAD orchestrator policies, in Dafny

PAD (Privacy-Aware Data publication) sanitizes a table of time series so that
every published row is shared by at least `k` input rows (k-anonymity). A
learned distance metric decides which rows are grouped. The heavy components
(the `K_ward` clustering engine, the resampler, the similarity labeller and
the metric learners) sit behind a thin orchestration layer: `Framwork` in
`framework/framework.py` and a few index helpers in `helper.py`. This project
models that layer as pure Dafny functions over integers and sequences, and
proves what its integer policies and bookkeeping guarantee.

Modules, one per concern of the source:

- `Anonymity`: the k-anonymity feasibility test `(2k-1)*5 < n`, the maximum
  achievable level `floor((n+5)/10)`, and the effective level chosen after
  resampling.
- `Labelling`: the bounded retry of `_subsample`. An attempt whose labels are
  empty is retried with the counter raised by one and the sample fraction by
  one tenth. The run fails once the counter exceeds five. The cluster cap
  starts at eight and is lowered to the number of extracted interest values.
- `Selection`: `_find_Metric_Leaning`'s choice of the learner at the first
  minimal loss (`list.index(min(...))`).
- `Sanitize`: `_sanitize_data`'s expansion of groups into rows. Every member
  key of every group gets one row carrying that group's representative, in
  group order and then member order.
- `Columns`: the column selection of `_get_data_for_sanitize` and
  `_add_metadata_for_sanitize_data`, from inclusive `[start, end]`
  descriptors, using Python's slicing rules (`PySlice`).
- `Framework`: the sequencing of `run` over the modules above.
- `Accuracy`: `Miscellaneous.accuracy`, pairwise agreement over all index
  pairs `i < j`. The result is an exact ratio, or the Python error it raises.
- `PrepareData`: `prepare_data`'s train/test split at `int(len(labels) *
  portion)`, with truncation toward zero and Python slicing.
- `Blocks`: the grouping step of `Utilities.process_data`, which groups row
  `i` under `i // k`.
- `Wrappers`: a `Result` type for the error paths.

The components the orchestrator calls but does not define are parameters
(arrow-typed or sequences):

- the resampler's row count and factor;
- the pair draw and interest count at a sample fraction;
- the labeller's answer for a draw and a cluster cap;
- the candidate learners and their losses;
- the strict order on losses;
- the clustering engine's groups for the pre-sanitization, and for each learner trained on the labelled pairs.

Representatives, losses, pair records and column identities are type
parameters.

Two consequences of the code's integer policies:

- The feasibility test (`framework/framework.py:61`) is strict, so a table of
  exactly `(2k-1)*5` rows is resampled (`Anonymity.BoundaryIsInfeasible`).
- The code's maximum level `floor((n+5)/10)` is itself infeasible for the
  strict test exactly when `n % 10 == 5`
  (`Anonymity.MaxKFeasibleUnlessBoundary`). `run` never re-tests the level it
  sets, so this has no further effect on a run.

## Model

| member | source | states |
|---|---|---|
| Anonymity.CanEnsureKAnonymity | framework/framework.py:60-63 | the test `(2k-1)*5 < n` holds exactly when `10k < n + 5` |
| Anonymity.FindMaxK | framework/framework.py:65-66 | the maximum level `m` satisfies `10*m <= n+5 < 10*(m+1)` |
| Anonymity.MaxKUnique | framework/framework.py:65-66 | any `m` with `10*m <= n+5 < 10*(m+1)` is the maximum level, so that level is the unique such `m` |
| Anonymity.MaxKMonotone | framework/framework.py:65-66 | more rows never lower the maximum level |
| Anonymity.BoundaryIsInfeasible | framework/framework.py:60-63 | for `k >= 1`, the test fails at `n = (2k-1)*5` and passes at `(2k-1)*5 + 1`; the comparison is strict |
| Anonymity.FeasibleBelowMaxK | framework/framework.py:60-66 | if the feasibility test passes for `(k, n)`, then `k` is at most the maximum level for `n` |
| Anonymity.MaxKFeasibleUnlessBoundary | framework/framework.py:60-66 | the maximum level for `n` passes the feasibility test for `n` if and only if `n % 10 != 5` |
| Anonymity.TuningSampleBelowLevel | framework/framework.py:47-50 | a feasible table of `10k-4` to `10k-1` rows gives a tuning sample of `floor(n/10) = k-1` rows, fewer than the level the learners are scored at |
| Anonymity.ResampledSampleBelowLevel | framework/framework.py:47-50 | after resampling to `n'` rows with `n' % 10 >= 5` and the maximum level in force, the level is `floor(n'/10) + 1`, one more than the tuning sample's rows |
| Anonymity.ChangeAnonymityLevel | framework/framework.py:173-180 | the new level is at most the maximum level of the resampled rows, at most `k` times the original row count, and equal to one of the two |
| Anonymity.EffectiveLevelIsMin | framework/framework.py:173-180 | the new level is the smaller of the two bounds, whichever one that is |
| Anonymity.ResampleFactorIgnored | framework/framework.py:173-180 | the resample factor passed in has no effect on the new level |
| Labelling.CapClusters | framework/framework.py:123-124 | the updated cap is at most the old cap and at most the interest count, and equals one of them |
| Labelling.CapAtIsMinimum | framework/framework.py:114-127 | the cap in force at attempt `j` never exceeds the starting cap or any interest count drawn so far, and equals the starting cap or one of those counts |
| Labelling.Subsample | framework/framework.py:114-132 | a call with counter above 5 fails; a success has non-empty labels, a counter between the starting one and 5, a fraction raised by exactly one tenth per retry, and a cap no larger than the starting one |
| Labelling.SubsampleStops | framework/framework.py:125-132 | an attempt with labels returns those labels, that draw's pairs, the counter, the fraction and the updated cap |
| Labelling.SubsampleRetries | framework/framework.py:125-127 | an attempt with empty labels returns what the retry returns, at the next counter and fraction and the updated cap |
| Labelling.AttemptShift | framework/framework.py:123-127 | attempt `j+1` of a chain is attempt `j` of the chain its first retry starts |
| Labelling.SubsampleSuccessIsFirst | framework/framework.py:114-132 | a success returns the first attempt whose labels are non-empty, with that draw's pairs and the cap in force at that attempt; every earlier attempt was empty |
| Labelling.SubsampleFailureMeansAllEmpty | framework/framework.py:114-127 | a failure means every attempt the budget allows came back with empty labels |
| Labelling.SubsampleSucceedsIff | framework/framework.py:114-132 | success if and only if some attempt within the budget yields non-empty labels |
| Labelling.AtMostSixAttempts | framework/framework.py:114-132 | from the run's start (a tenth of the data, counter 0, cap 8), a success comes from one of at most six attempts, samples at most six tenths, and keeps the cap at most 8 |
| Labelling.RunLabelling | framework/framework.py:114-132 | from the run's start, labelling fails exactly when all six attempts are empty, and otherwise returns the labels of the first non-empty attempt together with the pairs drawn for it |
| Selection.MinLoss | framework/framework.py:107 | Python's `min` over a prefix returns one of its elements, and no element of the prefix is strictly smaller |
| Selection.IndexOf | framework/framework.py:107 | `list.index` returns the first position holding the value |
| Selection.BestModelIndex | framework/framework.py:107 | the chosen index is in range, no loss is strictly below its loss, and every earlier loss is strictly above it, so it is the first minimal index |
| Selection.BestModelIndexUnique | framework/framework.py:107 | any index that is minimal and first-minimal is the chosen index |
| Selection.Losses | framework/framework.py:97-104 | the loss list has one entry per candidate, in candidate order, each that candidate's loss |
| Selection.SelectLearner | framework/framework.py:107 | an empty loss list if and only if the selection fails; otherwise the chosen position is in range, no loss is strictly below the loss there, and every earlier loss is strictly above it |
| Selection.FindMetricLearning | framework/framework.py:93-108 | the loop that scores every candidate in order returns the learner at the position the selection picks over their losses, and fails exactly when there are no candidates |
| Sanitize.SanitizeRows | framework/framework.py:152-161 | one row per member key, so the size is the sum of the group sizes; row keys follow the members in group order, then member order |
| Sanitize.RowFromItsGroup | framework/framework.py:153-160 | every output row's key is a member of some group and carries that group's representative |
| Sanitize.SanitizeRowPosition | framework/framework.py:153-160 | member `m` of group `g` is written at position (size of the groups before `g`) + `m`, with `g`'s representative |
| Sanitize.OwnRepresentative | framework/framework.py:153-160 | when no key is in two groups, a key's row carries its own group's representative |
| Sanitize.SanitizeRowsAppend | framework/framework.py:153-160 | the rows of two group lists in sequence are the rows of each, in sequence |
| Sanitize.Sanitized | framework/framework.py:152-162 | no member keys at all with a non-empty column list fails on the final column assignment; otherwise the result is the expanded rows, non-empty unless the column list is empty |
| Sanitize.SanitizeData | framework/framework.py:152-162 | the nested loop over groups and member keys builds exactly those rows, and fails exactly as the column assignment does |
| PySlice.Bound | framework/framework.py:44 | a slice bound is normalised as Python does: kept when in range, clamped above, counted from the end when negative, and clamped at zero |
| PySlice.Take | helper.py:137-138 | `s[:c]` has as many elements as the normalised bound and they are the first elements of `s` |
| PySlice.Drop | helper.py:139-140 | `s[c:]` holds the elements of `s` from the normalised bound on, in order |
| PySlice.Slice | framework/framework.py:44 | `s[a:b]` is empty when the normalised start passes the normalised stop, and otherwise holds the elements between them, in order |
| PySlice.TakeDropRecovers | helper.py:137-142 | `s[:c] + s[c:] == s` for every integer `c` |
| Columns.DescriptorColumns | framework/framework.py:44 | a descriptor's columns come from the table, and are exactly `start..end` inclusive when that range lies inside the table |
| Columns.Select | framework/framework.py:42-44 | every selected column is a table column of some descriptor of the requested kind, and every column of every such descriptor is selected |
| Columns.DataForSanitize | framework/framework.py:40-45 | the sanitized-data columns come from the table, each from a non-metadata descriptor, every column of every non-metadata descriptor is among them, and their count is the total width of those descriptors when every range is inside the table |
| Columns.AddMetadata | framework/framework.py:52-58 | the output starts with exactly the metadata selection, each column from a metadata descriptor, followed by the sanitized columns unchanged |
| Columns.SelectWidth | framework/framework.py:40-56 | with in-range descriptors, the selected columns of one kind number the total width of the descriptors of that kind |
| Columns.SelectSplitsAll | framework/framework.py:40-58 | the metadata columns and the data columns together are, as a multiset, the columns of all descriptors |
| Columns.SelectOne | framework/framework.py:42-44 | one descriptor selects its own `iloc` columns when it is of the requested kind, and nothing otherwise |
| Columns.SelectAppend | framework/framework.py:42-44 | the selection follows descriptor order: over two descriptor lists in sequence it is the selection over each, in sequence |
| Columns.SelectNone | framework/framework.py:42-44 | with no descriptor of the requested kind the selection is empty |
| Columns.MetadataThenData | framework/framework.py:40-58 | with metadata descriptors first, the metadata selection followed by the data selection is every descriptor's columns in descriptor order |
| Columns.ReassembleRecovers | framework/framework.py:40-58 | with descriptors that tile the table, metadata first, re-adding the metadata to the unchanged data columns gives back the table's columns in their order |
| Columns.MetadataPlusDataIsPermutation | framework/framework.py:40-58 | when the descriptors tile the table, metadata followed by the sanitized-data columns is a rearrangement of the table's columns |
| Framework.RunLevel | framework/framework.py:185-189 | the level is `k` when feasible, and otherwise the effective level bounded by max k and `k` times the row count |
| Framework.Run | framework/framework.py:182-201 | fails on the column assignment first when the pre-sanitization's clustering has no members and the data has columns; past that, fails with the labelling error exactly when all six attempts are empty; once labelling succeeds, fails for want of learners exactly when there are none, and on the column assignment exactly when the learner at the first least loss clusters into groups with no members and the data has columns; otherwise reports resampling exactly when infeasible, the effective level, the labels and pairs of the first non-empty attempt, the learner at the first minimal loss, and one row per member of the final groups |
| Framework.FirstLeastLossUnique | framework/framework.py:107 | at most one candidate has the first least loss, so `list.index(min(...))` names a single learner |
| Framework.Finish | framework/framework.py:197-200 | with labelled pairs, picks the learner at the first minimal loss and yields one row per member of its groups; it fails exactly when there are no candidates, or when that learner's groups have no members and the data has columns |
| Accuracy.Accuracy | helper.py:120-125 | fewer than two labels gives a division by zero; a shorter assigned list gives an index error; otherwise `n(n-1)/2` pairs and agreements between 0 and that count, so the ratio lies in `[0, 1]` |
| Accuracy.RowPairs | helper.py:122-123 | the inner `range(i+1, n)` yields the pairs `(i, j)` for `j` from its start up to `n - 1`, in order, `n - start` of them |
| Accuracy.PairIndicesCoverage | helper.py:122-123 | the compared pairs are exactly the `i < j < n`, each once, `n(n-1)/2` in all |
| Accuracy.PairsFromSorted | helper.py:122-123 | the pairs are compared in row-major order |
| Accuracy.CountAgree | helper.py:122-124 | the agreement count never exceeds the number of compared pairs |
| Accuracy.CountAgreeFull | helper.py:122-124 | the count equals the number of pairs exactly when the labellings agree on every pair |
| Accuracy.CountAgreeAppend | helper.py:122-124 | agreement counts add up over concatenated pair lists |
| Accuracy.SelfAccuracy | helper.py:120-125 | a labelling compared with itself scores every pair |
| Accuracy.AccuracySymmetric | helper.py:120-125 | for equal lengths, accuracy does not depend on which labelling is the true one |
| Accuracy.AccuracyLoop | helper.py:120-125 | the nested loop over `i` and `j > i` computes the accuracy |
| PrepareData.TruncDivTruncates | helper.py:137 | `int()` of a quotient is the multiple count on the quotient's own side of zero: truncation toward zero for both signs |
| PrepareData.CutTruncates | helper.py:136-137 | the cut `int(len * num/den)` is `len * num / den` truncated toward zero |
| PrepareData.CutInRange | helper.py:136-137 | for a portion in `[0, 1]` the cut lies between 0 and the label count |
| PrepareData.Firsts | helper.py:135 | the unzipped first records, one per pair, in order |
| PrepareData.Seconds | helper.py:135 | the unzipped second records, one per pair, in order |
| PrepareData.SplitAt | helper.py:137-142 | the train parts at a cut are prefixes of the first records, second records and labels, no longer than those lists |
| PrepareData.Prepare | helper.py:134-143 | an empty pair list fails to unpack; otherwise the train parts are prefixes of the first records, second records and labels |
| PrepareData.TrainLength | helper.py:136-141 | for any non-negative portion, even above 1, each train part holds the cut's count of entries, or all of them when the cut lies past the end |
| PrepareData.SplitRecovers | helper.py:137-142 | each train part followed by its test part is the whole list, for any portion |
| PrepareData.CutPositions | helper.py:137-142 | for a portion in `[0, 1]` and equal lengths, the six slices at the cut have the cut's length or the rest, and test position `i` is original position `cut + i` |
| PrepareData.SharedCut | helper.py:137-142 | for a portion in `[0, 1]` and equal lengths, the three train parts have the cut's length, and position `i` of every part refers to the same original pair |
| Blocks.BlockOf | helper.py:71 | at a positive level `k`, row `i` is numbered `g` with `k*g <= i < k*(g+1)`; at level 0 every row is numbered 0 |
| Blocks.Blocks | helper.py:71 | no rows gives no groups, and every group is non-empty |
| Blocks.BlocksCover | helper.py:71 | the groups, in order, concatenate back to the rows, so they are contiguous, disjoint and cover every row |
| Blocks.RowInItsBlock | helper.py:71 | row `i` sits in group `i div k`, at position `i mod k` |
| Blocks.BlockCount | helper.py:71 | there are `ceil(n/k)` groups |
| Blocks.FullBlocks | helper.py:71 | every group but the last has exactly `k` rows |
| Blocks.LastBlock | helper.py:71 | the last group has `n mod k` rows when that is non-zero, and `k` rows otherwise |
| Blocks.ZeroLevelOneBlock | helper.py:71 | at level 0 every row falls in group 0, so all rows form one group in their original order |

## Left out

- `K_ward` clustering and group representatives (means): not part of this
  model. The initial and final groups are the `initCluster` and `cluster`
  parameters of `Framework.Run`, and
  representatives are an opaque type.
- `Resampler.resample_data_into_blocks`, `create_timeserices_from_slices_of_data`
  and `OutputGroupper`: not part of this model. The resampled row count is a
  parameter, and the reassembly of the output is not modelled.
- `Verifyerror`: the table is assumed to have passed verification; its row
  count is the `rows` argument of `Framework.Run`.
- The similarity labeller, `Subsampling.uniform_sampling` and
  `extract_interested_attribute`: not part of this model. They are the
  `draw` and `labeller` parameters.
- The pre-sanitization step (`_presanitized`): its rows only feed the draw,
  so they are folded into the `draw` parameter. Its clustering is the
  `initCluster` parameter, and its column-assignment failure is modelled
  (`Framework.PresanitizeFails`). Its printed information loss is not.
- `get_statistics_loss` and the learners' `train`: losses are an opaque type
  with a strict order `lt`, so float losses (NaN) are out.
  `Selection.SelectLearner` requires that order to be strict and total.
- The reflection-based learner discovery (`_find_all_Metric_Leanings`): it is
  replaced by the `learners` list. An empty list models `min([])`'s
  `ValueError`.
- Randomness: `df.sample`, shuffling, and the `floor(n/10)` sample of
  `_get_data_for_model_optimazation`. The losses take the chosen level but not
  the random evaluation sample.
- Floating point:
  - the sample fraction is in integer tenths;
  - `prepare_data`'s portion is an exact ratio `num/den`, not a float product;
  - accuracy is the pair of agreement and pair counts, not the float quotient.
- `Anonymity.FindMaxK`: computed in exact integers. The source's float
  division before `floor` agrees with it for row counts below 2^52.
- `Blocks.Blocks`: the level is a `nat`. A level of 0 (numpy's `// 0`
  yields 0) puts all rows in one group. Negative levels are not modelled, and
  neither are the shuffle and the per-group mean of `process_data`.
- Pandas plumbing, `print` output, row-index labels and the final
  `sort_index` of `run`'s output.
- `Framework.Run`: the clustering engine and the losses are total
  functions, so the engine's own failures are not modelled. One such failure
  is reachable: a feasible table of `10k-4` to `10k-1` rows gives a tuning
  sample smaller than `k` (`Anonymity.TuningSampleBelowLevel`). So does a
  resampled table of `n'` rows with `n' % 10 >= 5` whose maximum level is the
  one in force (`Anonymity.ResampledSampleBelowLevel`).
- `Framework.Run`: the report leaves out the information loss `loss_metric`
  that `run` computes and returns (`framework/framework.py:201,216`).
- `Sanitize.Sanitized`: the representatives are assumed to have as many
  entries as the data has columns, so only the empty frame's column
  assignment can fail.
- `Framework.Run`: models the path through `_add_metadata_for_sanitize_data`
  only as the separate `Columns` functions. The report carries the sanitized
  rows, not the reassembled table.

=== FILE: accuracy.dfy ===
/** Pairwise-agreement accuracy (`Miscellaneous.accuracy` in helper.py):
    for every unordered index pair `i < j` of the true labelling, in the
    comprehension's order, one term that is 1 when the two labellings agree
    on whether `i` and `j` share a label; the accuracy is the sum of the
    terms over the number of pairs `n(n-1)/2`. The quotient is kept as a
    ratio of two naturals rather than a float. */
module Accuracy {
  import opened Wrappers

  /** The exceptions the source raises: dividing by `0.5*n*(n-1) == 0` when
      there are fewer than two labels, and indexing past the end of an
      assigned labelling shorter than the true one. */
  datatype AccuracyError = ZeroDivision | IndexOutOfRange

  /** An accuracy value `agreements / pairs`. */
  datatype Ratio = Ratio(agreements: nat, pairs: nat)

  /** `(i, j)` for `j` from `j0` up to `n - 1`: the inner loop of the comprehension. */
  function RowPairs(i: nat, j0: nat, n: nat): (ps: seq<(nat, nat)>)
    ensures |ps| == if j0 <= n then n - j0 else 0
    ensures forall k :: 0 <= k < |ps| ==> ps[k] == (i, j0 + k)
    decreases n - j0
  {
    if j0 >= n then [] else [(i, j0)] + RowPairs(i, j0 + 1, n)
  }

  /** Every pair `(i, j)` with `i0 <= i < j < n`, row by row: the comprehension from row `i0` on. */
  function PairsFrom(i0: nat, n: nat): seq<(nat, nat)>
    decreases n - i0
  {
    if i0 >= n then [] else RowPairs(i0, i0 + 1, n) + PairsFrom(i0 + 1, n)
  }

  /** The index pairs the comprehension visits for `n` labels. */
  function PairIndices(n: nat): seq<(nat, nat)> {
    PairsFrom(0, n)
  }

  /** Whether the two labellings agree on pair `p`; false off the end of either. */
  predicate Agree<T(==)>(t: seq<T>, a: seq<T>, p: (nat, nat)) {
    p.0 < |t| && p.1 < |t| && p.0 < |a| && p.1 < |a| && ((t[p.0] == t[p.1]) == (a[p.0] == a[p.1]))
  }

  /** The number of pairs in `ps` the two labellings agree on: `sum(acc_vec)`. */
  function CountAgree<T(==)>(t: seq<T>, a: seq<T>, ps: seq<(nat, nat)>): (c: nat)
    ensures c <= |ps|
  {
    if |ps| == 0 then 0 else (if Agree(t, a, ps[0]) then 1 else 0) + CountAgree(t, a, ps[1..])
  }

  /** Every compared pair counts exactly when the labellings agree on all of them. */
  lemma {:induction false} CountAgreeFull<T>(t: seq<T>, a: seq<T>, ps: seq<(nat, nat)>)
    ensures CountAgree(t, a, ps) == |ps| <==> forall i :: 0 <= i < |ps| ==> Agree(t, a, ps[i])
  {
    if |ps| > 0 {
      CountAgreeFull(t, a, ps[1..]);
      assert forall i :: 1 <= i < |ps| ==> ps[1..][i - 1] == ps[i];
    }
  }

  /** `accuracy(true_label, assigned_label)`. */
  function Accuracy<T(==)>(t: seq<T>, a: seq<T>): (r: Result<Ratio, AccuracyError>)
    ensures |t| < 2 ==> r == Failure(ZeroDivision)
    ensures |t| >= 2 && |a| < |t| ==> r == Failure(IndexOutOfRange)
    ensures |t| >= 2 && |a| >= |t| ==> r.Success?
    ensures r.Success? ==> 0 < r.value.pairs && r.value.agreements <= r.value.pairs
    ensures r.Success? ==> 2 * r.value.pairs == |t| * (|t| - 1)
  {
    if |t| < 2 then Failure(ZeroDivision)
    else if |a| < |t| then Failure(IndexOutOfRange)
    else
      PairCount(0, |t|);
      var ps := PairIndices(|t|);
      Success(Ratio(CountAgree(t, a, ps), |ps|))
  }

  /** Counting over two runs of pairs adds up. */
  lemma {:induction false} CountAgreeAppend<T>(t: seq<T>, a: seq<T>, xs: seq<(nat, nat)>, ys: seq<(nat, nat)>)
    ensures CountAgree(t, a, xs + ys) == CountAgree(t, a, xs) + CountAgree(t, a, ys)
  {
    if |xs| == 0 {
      assert xs + ys == ys;
    } else {
      assert (xs + ys)[1..] == xs[1..] + ys;
      CountAgreeAppend(t, a, xs[1..], ys);
    }
  }

  /** There are `(n - i0)(n - i0 - 1) / 2` pairs from row `i0` on. */
  lemma {:induction false} PairCount(i0: nat, n: nat)
    requires i0 <= n
    ensures 2 * |PairsFrom(i0, n)| == (n - i0) * (n - i0 - 1)
    decreases n - i0
  {
    if i0 < n {
      PairCount(i0 + 1, n);
      var m := n - i0;
      assert 2 * (m - 1) + (m - 1) * (m - 2) == m * (m - 1);
    }
  }

  /** The pairs from row `i0` on are exactly the pairs `i0 <= i < j < n`. */
  lemma {:induction false} PairsFromMembers(i0: nat, n: nat)
    ensures forall p :: p in PairsFrom(i0, n) <==> i0 <= p.0 < p.1 < n
    decreases n - i0
  {
    if i0 < n {
      PairsFromMembers(i0 + 1, n);
      var row := RowPairs(i0, i0 + 1, n);
      forall p: (nat, nat) | i0 <= p.0 < p.1 < n && p.0 == i0
        ensures p in row
      {
        assert row[p.1 - (i0 + 1)] == p;
      }
    }
  }

  /** Pair `p` comes strictly before pair `q` in row-major order. */
  predicate Before(p: (nat, nat), q: (nat, nat)) {
    p.0 < q.0 || (p.0 == q.0 && p.1 < q.1)
  }

  /** The comprehension visits pairs in strictly increasing row-major order. */
  lemma {:induction false} PairsFromSorted(i0: nat, n: nat)
    ensures forall x, y :: 0 <= x < y < |PairsFrom(i0, n)| ==> Before(PairsFrom(i0, n)[x], PairsFrom(i0, n)[y])
    decreases n - i0
  {
    if i0 < n {
      PairsFromSorted(i0 + 1, n);
      PairsFromMembers(i0 + 1, n);
      var row := RowPairs(i0, i0 + 1, n);
      var rest := PairsFrom(i0 + 1, n);
      var all := row + rest;
      forall x, y | 0 <= x < y < |all|
        ensures Before(all[x], all[y])
      {
        if y >= |row| && x < |row| {
          assert all[y] == rest[y - |row|];
          assert all[y] in rest;
        } else if x >= |row| {
          assert all[x] == rest[x - |row|] && all[y] == rest[y - |row|];
        }
      }
    }
  }

  /** Pair coverage: the comprehension compares every unordered pair
      `i < j < n` exactly once (each occurs, and no two positions hold the
      same pair), `n(n-1)/2` comparisons in all. */
  lemma PairIndicesCoverage(n: nat)
    ensures forall p :: p in PairIndices(n) <==> p.0 < p.1 < n
    ensures forall x, y :: 0 <= x < y < |PairIndices(n)| ==> PairIndices(n)[x] != PairIndices(n)[y]
    ensures 2 * |PairIndices(n)| == n * (n - 1)
  {
    PairsFromMembers(0, n);
    PairsFromSorted(0, n);
    PairCount(0, n);
  }

  /** A labelling compared with itself agrees on every pair in bounds. */
  lemma {:induction false} CountAgreeSelf<T>(t: seq<T>, ps: seq<(nat, nat)>)
    requires forall p :: p in ps ==> p.0 < |t| && p.1 < |t|
    ensures CountAgree(t, t, ps) == |ps|
  {
    if |ps| > 0 {
      assert ps[0] in ps;
      CountAgreeSelf(t, ps[1..]);
    }
  }

  /** Self-accuracy: a labelling of at least two items scores exactly 1 against itself. */
  lemma SelfAccuracy<T>(t: seq<T>)
    requires |t| >= 2
    ensures Accuracy(t, t).Success?
    ensures Accuracy(t, t).value.agreements == Accuracy(t, t).value.pairs
  {
    PairIndicesCoverage(|t|);
    CountAgreeSelf(t, PairIndices(|t|));
  }

  /** Swapping the labellings changes no term. */
  lemma {:induction false} CountAgreeSymmetric<T>(t: seq<T>, a: seq<T>, ps: seq<(nat, nat)>)
    ensures CountAgree(t, a, ps) == CountAgree(a, t, ps)
  {
    if |ps| > 0 {
      CountAgreeSymmetric(t, a, ps[1..]);
    }
  }

  /** Symmetry: for labellings of equal length the accuracy does not depend
      on which one is called the true labelling. */
  lemma AccuracySymmetric<T>(t: seq<T>, a: seq<T>)
    requires |t| == |a|
    ensures Accuracy(t, a) == Accuracy(a, t)
  {
    CountAgreeSymmetric(t, a, PairIndices(|t|));
  }

  /** The comprehension as two nested loops, counting agreements pair by pair. */
  method AccuracyLoop<T(==)>(t: seq<T>, a: seq<T>) returns (r: Result<Ratio, AccuracyError>)
    ensures r == Accuracy(t, a)
  {
    var n := |t|;
    if n < 2 {
      return Failure(ZeroDivision);
    }
    if |a| < n {
      return Failure(IndexOutOfRange);
    }
    var count := 0;
    var i := 0;
    while i < n
      invariant 0 <= i <= n
      invariant count + CountAgree(t, a, PairsFrom(i, n)) == CountAgree(t, a, PairIndices(n))
    {
      CountAgreeAppend(t, a, RowPairs(i, i + 1, n), PairsFrom(i + 1, n));
      var j := i + 1;
      while j < n
        invariant i + 1 <= j <= n
        invariant count + CountAgree(t, a, RowPairs(i, j, n)) + CountAgree(t, a, PairsFrom(i + 1, n))
               == CountAgree(t, a, PairIndices(n))
      {
        assert RowPairs(i, j, n)[0] == (i, j);
        if (t[i] == t[j]) == (a[i] == a[j]) {
          count := count + 1;
        }
        j := j + 1;
      }
      i := i + 1;
    }
    PairCount(0, n);
    r := Success(Ratio(count, n * (n - 1) / 2));
  }
}

=== FILE: anonymity.dfy ===
/** The anonymity-level policy of the orchestrator (framework/framework.py):
    whether a dataset is large enough to cluster directly at level `k`, the
    largest level a dataset of a given size supports, and the level a run
    falls back to after the dataset has been resampled into blocks. */
module Anonymity {

  /** `_can_ensure_k_anonymity`: clustering at level `k` is attempted
      directly only when the row count strictly exceeds `(2k - 1) * 5`. */
  predicate CanEnsureKAnonymity(k: int, rows: nat): (ok: bool)
    ensures ok <==> 10 * k < rows + 5
  {
    (2 * k - 1) * 5 < rows
  }

  /** `_find_max_k`: `floor((rows + 5) / 10)`, computed exactly. The source
      floors a float quotient, which agrees with this for row counts below
      2^52. */
  function FindMaxK(rows: nat): (m: nat)
    ensures 10 * m <= rows + 5 < 10 * (m + 1)
  {
    (rows + 5) / 10
  }

  /** `change_anonymity_level`: the level after resampling is the maximum
      level the resampled row count supports, unless that exceeds the
      requested level times the original row count (the number of
      sensors), which then caps it. The resample factor is accepted and
      ignored, as in the source. */
  function ChangeAnonymityLevel(k: int, sensors: nat, rowsAfterResample: nat, resampleFactor: int): (r: int)
    ensures r <= FindMaxK(rowsAfterResample)
    ensures r <= k * sensors
    ensures r == FindMaxK(rowsAfterResample) || r == k * sensors
  {
    var maxK := FindMaxK(rowsAfterResample);
    if maxK > k * sensors then k * sensors else maxK
  }

  /** The boundary case is infeasible: a dataset of exactly
      `(2k - 1) * 5` rows is resampled rather than clustered. */
  lemma BoundaryIsInfeasible(k: int)
    requires k >= 1
    ensures !CanEnsureKAnonymity(k, (2 * k - 1) * 5)
    ensures CanEnsureKAnonymity(k, (2 * k - 1) * 5 + 1)
  {
  }

  /** `FindMaxK(rows)` is the one level `m` with `10m <= rows + 5 < 10(m + 1)`. */
  lemma {:induction false} MaxKUnique(rows: nat, m: int)
    requires 10 * m <= rows + 5 < 10 * (m + 1)
    ensures m == FindMaxK(rows)
  {
    var q := FindMaxK(rows);
    assert 10 * m < 10 * (q + 1);
    assert 10 * q < 10 * (m + 1);
  }

  /** A larger dataset never supports a smaller level. */
  lemma {:induction false} MaxKMonotone(rows: nat, rows': nat)
    requires rows <= rows'
    ensures FindMaxK(rows) <= FindMaxK(rows')
  {
    var m, m' := FindMaxK(rows), FindMaxK(rows');
    assert 10 * m < 10 * (m' + 1);
  }

  /** Every level that passes the feasibility test is at most the maximum level. */
  lemma {:induction false} FeasibleBelowMaxK(k: int, rows: nat)
    requires CanEnsureKAnonymity(k, rows)
    ensures k <= FindMaxK(rows)
  {
    var m := FindMaxK(rows);
    assert 10 * k < 10 * (m + 1);
  }

  /** The converse holds except at one residue: the maximum level itself
      passes the strict feasibility test exactly when the row count is not
      5 modulo 10. For 15 rows the maximum level is 2, yet 2 fails the
      test because `(2 * 2 - 1) * 5 == 15`. */
  lemma {:induction false} MaxKFeasibleUnlessBoundary(rows: nat)
    ensures CanEnsureKAnonymity(FindMaxK(rows), rows) <==> rows % 10 != 5
  {
    var m: int := FindMaxK(rows);
    assert (2 * m - 1) * 5 == 10 * m - 5;
    assert rows + 5 == 10 * ((rows + 5) / 10) + (rows + 5) % 10;
  }

  /** The effective level after resampling does not depend on the resample factor. */
  lemma ResampleFactorIgnored(k: int, sensors: nat, rows: nat, f: int, f': int)
    ensures ChangeAnonymityLevel(k, sensors, rows, f) == ChangeAnonymityLevel(k, sensors, rows, f')
  {
  }

  /** The effective level is the smaller of the two bounds. */
  lemma EffectiveLevelIsMin(k: int, sensors: nat, rows: nat, f: int)
    ensures var r := ChangeAnonymityLevel(k, sensors, rows, f);
      (FindMaxK(rows) <= k * sensors ==> r == FindMaxK(rows)) &&
      (k * sensors <= FindMaxK(rows) ==> r == k * sensors)
  {
  }

  /** A feasible table of `10k - 4` to `10k - 1` rows yields a tuning sample
      of `floor(n / 10)` rows (`_get_data_for_model_optimazation`) that is one
      row short of the level every candidate learner is scored at. */
  lemma {:induction false} TuningSampleBelowLevel(k: int, rows: nat)
    requires 10 * k - 4 <= rows < 10 * k
    ensures CanEnsureKAnonymity(k, rows)
    ensures rows / 10 == k - 1
  {
    assert 10 * (k - 1) <= rows < 10 * k;
  }

  /** The same shortfall after resampling: when the resampled table's
      `n' % 10` is at least 5 and its maximum level is the effective one,
      the tuning sample of `floor(n' / 10)` rows is one row short of that
      level. With `k = 5`, 8 sensors and 45 resampled rows the level is 5
      and the sample has 4 rows. */
  lemma {:induction false} ResampledSampleBelowLevel(k: int, sensors: nat, rowsAfterResample: nat, resampleFactor: int)
    requires rowsAfterResample % 10 >= 5
    requires FindMaxK(rowsAfterResample) <= k * sensors
    ensures ChangeAnonymityLevel(k, sensors, rowsAfterResample, resampleFactor) == rowsAfterResample / 10 + 1
  {
    var n := rowsAfterResample;
    assert n == 10 * (n / 10) + n % 10;
    assert FindMaxK(n) == n / 10 + 1;
  }
}

=== FILE: blocks.dfy ===
/** Block grouping of rows (the grouping step of `Utilities.process_data`
    in helper.py): after shuffling, row `i` is put in group `i // k`
    (numpy's floor division of `arange(n)` by the anonymity level), groups
    are listed by key, and each group is then averaged. The shuffle and the
    averaging are not modelled; the groups are returned as runs of rows. */
module Blocks {

  /** numpy's `i // k` on non-negative integers; numpy's integer division by
      zero yields 0, which puts every row in group 0. */
  function BlockOf(i: nat, k: nat): (g: nat)
    ensures k == 0 ==> g == 0
    ensures k > 0 ==> k * g <= i < k * (g + 1)
  {
    if k == 0 then 0 else i / k
  }

  /** The groups of `groupby(arange(n) // k)`, in key order. */
  function Blocks<R>(rows: seq<R>, k: nat): (bs: seq<seq<R>>)
    ensures |rows| == 0 <==> |bs| == 0
    ensures forall g :: 0 <= g < |bs| ==> 0 < |bs[g]|
    decreases |rows|
  {
    if |rows| == 0 then []
    else if k == 0 || |rows| <= k then [rows]
    else [rows[..k]] + Blocks(rows[k..], k)
  }

  /** The rows of the groups, one group after another. */
  function Concat<R>(bs: seq<seq<R>>): seq<R> {
    if |bs| == 0 then [] else bs[0] + Concat(bs[1..])
  }

  /** `ceil(n / k)` for a positive `k`. */
  function CeilDiv(n: nat, k: nat): nat
    requires k > 0
  {
    (n + k - 1) / k
  }

  /** A multiple of `k` strictly between `-k` and `k` is zero. */
  lemma SmallMultiple(x: int, k: int)
    requires k > 0 && -k < k * x < k
    ensures x == 0
  {
    assert x >= 1 ==> k * x >= k * 1;
    assert x <= -1 ==> k * x <= k * (-1);
  }

  /** Quotient and remainder are unique. */
  lemma DivUnique(i: nat, k: nat, q: int, r: int)
    requires k > 0 && 0 <= r < k && i == k * q + r
    ensures q == i / k && r == i % k
  {
    assert k * (q - i / k) == i % k - r;
    SmallMultiple(q - i / k, k);
  }

  /** Shifting an index past one full block. */
  lemma DivShift(i: nat, k: nat)
    requires 0 < k <= i
    ensures i / k == (i - k) / k + 1 && i % k == (i - k) % k
  {
    var q, r := (i - k) / k, (i - k) % k;
    assert i == k * (q + 1) + r;
    DivUnique(i, k, q + 1, r);
  }

  /** The groups are contiguous, disjoint and cover every row: laid end to
      end they give back the rows in order. */
  lemma {:induction false} BlocksCover<R>(rows: seq<R>, k: nat)
    ensures Concat(Blocks(rows, k)) == rows
    decreases |rows|
  {
    if |rows| > 0 && !(k == 0 || |rows| <= k) {
      BlocksCover(rows[k..], k);
      assert rows == rows[..k] + rows[k..];
    }
  }

  /** Block membership: row `i` is member `i mod k` of group `i div k`. */
  lemma {:induction false} RowInItsBlock<R>(rows: seq<R>, k: nat, i: nat)
    requires k > 0 && i < |rows|
    ensures BlockOf(i, k) < |Blocks(rows, k)|
    ensures i % k < |Blocks(rows, k)[BlockOf(i, k)]|
    ensures Blocks(rows, k)[BlockOf(i, k)][i % k] == rows[i]
    decreases |rows|
  {
    if |rows| <= k {
      assert i / k == 0 && i % k == i;
    } else if i < k {
      assert i / k == 0 && i % k == i;
    } else {
      DivShift(i, k);
      RowInItsBlock(rows[k..], k, i - k);
    }
  }

  /** There are `ceil(n / k)` groups. */
  lemma {:induction false} BlockCount<R>(rows: seq<R>, k: nat)
    requires k > 0
    ensures |Blocks(rows, k)| == CeilDiv(|rows|, k)
    decreases |rows|
  {
    var n := |rows|;
    if n == 0 {
      DivUnique(k - 1, k, 0, k - 1);
    } else if n <= k {
      DivUnique(n + k - 1, k, 1, n - 1);
    } else {
      BlockCount(rows[k..], k);
      DivShift(n + k - 1, k);
    }
  }

  /** Every group but the last has exactly `k` rows. */
  lemma {:induction false} FullBlocks<R>(rows: seq<R>, k: nat)
    requires k > 0
    ensures forall g :: 0 <= g < |Blocks(rows, k)| - 1 ==> |Blocks(rows, k)[g]| == k
    decreases |rows|
  {
    if |rows| > k {
      FullBlocks(rows[k..], k);
      var bs := Blocks(rows, k);
      var rest := Blocks(rows[k..], k);
      assert bs == [rows[..k]] + rest;
      forall g | 0 < g < |bs| - 1
        ensures |bs[g]| == k
      {
        assert bs[g] == rest[g - 1];
      }
    }
  }

  /** The last group has `n mod k` rows when that is not zero, and `k` otherwise. */
  lemma {:induction false} LastBlock<R>(rows: seq<R>, k: nat)
    requires k > 0 && |rows| > 0
    ensures |Blocks(rows, k)[|Blocks(rows, k)| - 1]| == if |rows| % k == 0 then k else |rows| % k
    decreases |rows|
  {
    var n := |rows|;
    if n < k {
      DivUnique(n, k, 0, n);
    } else if n == k {
      DivUnique(n, k, 1, 0);
    } else {
      LastBlock(rows[k..], k);
      DivShift(n, k);
      var bs := Blocks(rows, k);
      var rest := Blocks(rows[k..], k);
      assert bs == [rows[..k]] + rest;
      assert bs[|bs| - 1] == rest[|rest| - 1];
    }
  }

  /** A level of 0: numpy's `i // 0` is 0 for every row, so all rows form
      one group and row `i` keeps its position in it. */
  lemma ZeroLevelOneBlock<R>(rows: seq<R>, i: nat)
    requires i < |rows|
    ensures Blocks(rows, 0) == [rows]
    ensures BlockOf(i, 0) == 0 && Blocks(rows, 0)[BlockOf(i, 0)][i] == rows[i]
  {
  }
}

=== FILE: columns.dfy ===
/** Column selection by data descriptors (`_get_data_for_sanitize` and
    `_add_metadata_for_sanitize_data` in framework/framework.py). Each
    descriptor names an inclusive column range `[start, end]` and is either a
    metadata descriptor or a data descriptor; the orchestrator concatenates
    the columns `iloc[:, start:end+1]` of the descriptors of one kind, in
    descriptor order. A table is modelled by its sequence of columns; a
    column's contents are abstract. */
module Columns {
  import PySlice

  /** A data descriptor: whether it describes metadata, and its inclusive column range. */
  datatype Descriptor = Descriptor(isMetadata: bool, start: int, end: int)

  /** The columns one descriptor covers: `iloc[:, start:end+1]`, with
      Python's slice rules for out-of-range and negative bounds. */
  function DescriptorColumns<C>(columns: seq<C>, d: Descriptor): (r: seq<C>)
    ensures forall c :: c in r ==> c in columns
    ensures 0 <= d.start <= d.end < |columns| ==> r == columns[d.start..d.end + 1]
  {
    PySlice.Slice(columns, d.start, d.end + 1)
  }

  /** The columns of every descriptor whose kind is `metadata`, concatenated in descriptor order. */
  function Select<C>(columns: seq<C>, descriptors: seq<Descriptor>, metadata: bool): (r: seq<C>)
    ensures forall c :: c in r ==> c in columns
    ensures forall c :: c in r ==> OfKind(columns, descriptors, metadata, c)
    ensures forall i, c :: (0 <= i < |descriptors| && descriptors[i].isMetadata == metadata
                            && c in DescriptorColumns(columns, descriptors[i])) ==> c in r
  {
    if |descriptors| == 0 then []
    else
      var rest := Select(columns, descriptors[1..], metadata);
      var r := if descriptors[0].isMetadata == metadata then DescriptorColumns(columns, descriptors[0]) + rest else rest;
      assert forall c :: c in r ==> OfKind(columns, descriptors, metadata, c) by {
        forall c | c in r
          ensures OfKind(columns, descriptors, metadata, c)
        {
          if !(descriptors[0].isMetadata == metadata && c in DescriptorColumns(columns, descriptors[0])) {
            assert c in rest;
            var i :| 0 <= i < |descriptors[1..]| && descriptors[1..][i].isMetadata == metadata
                     && c in DescriptorColumns(columns, descriptors[1..][i]);
            assert descriptors[1..][i] == descriptors[i + 1];
          }
        }
      }
      assert forall i, c :: (0 < i < |descriptors| && descriptors[i].isMetadata == metadata
                             && c in DescriptorColumns(columns, descriptors[i])) ==> c in rest by {
        forall i, c | 0 < i < |descriptors| && descriptors[i].isMetadata == metadata
               && c in DescriptorColumns(columns, descriptors[i])
          ensures c in rest
        {
          assert descriptors[1..][i - 1] == descriptors[i];
        }
      }
      r
  }

  /** Column `c` is covered by some descriptor of the requested kind. */
  ghost predicate OfKind<C>(columns: seq<C>, descriptors: seq<Descriptor>, metadata: bool, c: C) {
    exists i :: 0 <= i < |descriptors| && descriptors[i].isMetadata == metadata && c in DescriptorColumns(columns, descriptors[i])
  }

  /** `_get_data_for_sanitize`: the columns of the data descriptors. */
  function DataForSanitize<C>(columns: seq<C>, descriptors: seq<Descriptor>): (r: seq<C>)
    ensures forall c :: c in r ==> OfKind(columns, descriptors, false, c)
    ensures forall i, c :: (0 <= i < |descriptors| && !descriptors[i].isMetadata
                            && c in DescriptorColumns(columns, descriptors[i])) ==> c in r
    ensures InRange(descriptors, |columns|) ==> |r| == KindWidth(descriptors, false)
  {
    var r := Select(columns, descriptors, false);
    assert InRange(descriptors, |columns|) ==> |r| == KindWidth(descriptors, false) by {
      if InRange(descriptors, |columns|) {
        SelectWidth(columns, descriptors, false);
      }
    }
    r
  }

  /** `_add_metadata_for_sanitize_data`: the metadata columns of the original
      table, followed by the sanitized columns. */
  function AddMetadata<C>(columns: seq<C>, descriptors: seq<Descriptor>, sanitized: seq<C>): (r: seq<C>)
    ensures |r| == |Select(columns, descriptors, true)| + |sanitized|
    ensures r[..|r| - |sanitized|] == Select(columns, descriptors, true)
    ensures r[|r| - |sanitized|..] == sanitized
    ensures forall i :: 0 <= i < |r| - |sanitized| ==> OfKind(columns, descriptors, true, r[i])
  {
    Select(columns, descriptors, true) + sanitized
  }

  /** The columns of every descriptor regardless of kind, in descriptor order. */
  function SelectAll<C>(columns: seq<C>, descriptors: seq<Descriptor>): seq<C> {
    if |descriptors| == 0 then []
    else DescriptorColumns(columns, descriptors[0]) + SelectAll(columns, descriptors[1..])
  }

  /** The number of columns an in-range descriptor covers. */
  function Width(d: Descriptor): int {
    d.end - d.start + 1
  }

  /** The total width of the descriptors of one kind. */
  function KindWidth(descriptors: seq<Descriptor>, metadata: bool): int {
    if |descriptors| == 0 then 0
    else (if descriptors[0].isMetadata == metadata then Width(descriptors[0]) else 0) + KindWidth(descriptors[1..], metadata)
  }

  /** Every descriptor names a non-empty range inside the table. */
  predicate InRange(descriptors: seq<Descriptor>, n: nat) {
    forall i :: 0 <= i < |descriptors| ==> 0 <= descriptors[i].start <= descriptors[i].end < n
  }

  /** The descriptors cover columns `lo` up to `n` one after another, without gap or overlap. */
  predicate Tiles(descriptors: seq<Descriptor>, lo: int, n: nat) {
    if |descriptors| == 0 then lo == n
    else descriptors[0].start == lo && lo <= descriptors[0].end < n && Tiles(descriptors[1..], descriptors[0].end + 1, n)
  }

  /** For in-range descriptors the selection of one kind has exactly the
      total width of the descriptors of that kind. */
  lemma {:induction false} SelectWidth<C>(columns: seq<C>, descriptors: seq<Descriptor>, metadata: bool)
    requires InRange(descriptors, |columns|)
    ensures |Select(columns, descriptors, metadata)| == KindWidth(descriptors, metadata)
  {
    if |descriptors| > 0 {
      assert InRange(descriptors[1..], |columns|) by {
        forall i | 0 <= i < |descriptors[1..]|
          ensures 0 <= descriptors[1..][i].start <= descriptors[1..][i].end < |columns|
        {
          assert descriptors[1..][i] == descriptors[i + 1];
        }
      }
      SelectWidth(columns, descriptors[1..], metadata);
    }
  }

  /** Metadata and data selections together hold the columns of all
      descriptors, each exactly as often as the descriptors name it. */
  lemma {:induction false} SelectSplitsAll<C>(columns: seq<C>, descriptors: seq<Descriptor>)
    ensures multiset(Select(columns, descriptors, true)) + multiset(Select(columns, descriptors, false))
         == multiset(SelectAll(columns, descriptors))
  {
    if |descriptors| > 0 {
      SelectSplitsAll(columns, descriptors[1..]);
    }
  }

  /** Descriptors that tile the table from column `lo` select exactly those columns, in order. */
  lemma {:induction false} TilingSelectsAll<C>(columns: seq<C>, descriptors: seq<Descriptor>, lo: nat)
    requires Tiles(descriptors, lo, |columns|)
    ensures SelectAll(columns, descriptors) == columns[lo..]
    decreases |descriptors|
  {
    if |descriptors| > 0 {
      var d := descriptors[0];
      TilingSelectsAll(columns, descriptors[1..], d.end + 1);
      assert columns[lo..] == columns[lo..d.end + 1] + columns[d.end + 1..];
    }
  }

  /** When the descriptors tile the table, the metadata columns followed by
      the data columns are a rearrangement of the table's columns: no column
      is lost or repeated. */
  lemma MetadataPlusDataIsPermutation<C>(columns: seq<C>, descriptors: seq<Descriptor>)
    requires Tiles(descriptors, 0, |columns|)
    ensures multiset(AddMetadata(columns, descriptors, DataForSanitize(columns, descriptors))) == multiset(columns)
  {
    SelectSplitsAll(columns, descriptors);
    TilingSelectsAll(columns, descriptors, 0);
    assert columns[0..] == columns;
  }

  /** One descriptor selects its own columns when it is of the requested kind, and nothing otherwise. */
  lemma SelectOne<C>(columns: seq<C>, d: Descriptor, metadata: bool)
    ensures Select(columns, [d], metadata) == if d.isMetadata == metadata then DescriptorColumns(columns, d) else []
  {
    assert [d][1..] == [];
  }

  /** Selection follows descriptor order: the selection over two descriptor
      lists in sequence is the selection over each, in sequence. */
  lemma {:induction false} SelectAppend<C>(columns: seq<C>, a: seq<Descriptor>, b: seq<Descriptor>, metadata: bool)
    ensures Select(columns, a + b, metadata) == Select(columns, a, metadata) + Select(columns, b, metadata)
  {
    if |a| > 0 {
      assert (a + b)[0] == a[0];
      assert (a + b)[1..] == a[1..] + b;
      SelectAppend(columns, a[1..], b, metadata);
    } else {
      assert a + b == b;
    }
  }

  /** Every metadata descriptor comes before every data descriptor. */
  predicate MetadataFirst(descriptors: seq<Descriptor>) {
    forall i, j :: 0 <= i < j < |descriptors| && descriptors[j].isMetadata ==> descriptors[i].isMetadata
  }

  /** With no descriptor of the requested kind, nothing is selected. */
  lemma {:induction false} SelectNone<C>(columns: seq<C>, descriptors: seq<Descriptor>, metadata: bool)
    requires forall i :: 0 <= i < |descriptors| ==> descriptors[i].isMetadata != metadata
    ensures Select(columns, descriptors, metadata) == []
  {
    if |descriptors| > 0 {
      assert forall i :: 0 <= i < |descriptors[1..]| ==> descriptors[1..][i] == descriptors[i + 1];
      SelectNone(columns, descriptors[1..], metadata);
    }
  }

  /** With the metadata descriptors first, the metadata selection followed by
      the data selection is every descriptor's columns, in descriptor order. */
  lemma {:induction false} MetadataThenData<C>(columns: seq<C>, descriptors: seq<Descriptor>)
    requires MetadataFirst(descriptors)
    ensures Select(columns, descriptors, true) + Select(columns, descriptors, false) == SelectAll(columns, descriptors)
  {
    if |descriptors| > 0 {
      var d, rest := descriptors[0], descriptors[1..];
      assert forall i :: 0 <= i < |rest| ==> rest[i] == descriptors[i + 1];
      assert MetadataFirst(rest);
      MetadataThenData(columns, rest);
      if !d.isMetadata {
        SelectNone(columns, rest, true);
      }
    }
  }

  /** The round trip of a table whose descriptors tile it with the metadata
      descriptors first: putting the metadata columns back in front of the
      unchanged data columns gives the table's columns, in their order. */
  lemma ReassembleRecovers<C>(columns: seq<C>, descriptors: seq<Descriptor>)
    requires Tiles(descriptors, 0, |columns|) && MetadataFirst(descriptors)
    ensures AddMetadata(columns, descriptors, DataForSanitize(columns, descriptors)) == columns
  {
    MetadataThenData(columns, descriptors);
    TilingSelectsAll(columns, descriptors, 0);
    assert columns[0..] == columns;
  }
}

=== FILE: framework.dfy ===
/** One `run` of the orchestrator (`Framwork.run` in framework/framework.py),
    sequenced from the policies modelled in the other modules: test
    feasibility at the requested level, fall back to resampling and the
    effective level when it fails, pre-sanitize with the initial metric,
    label pairs of the pre-sanitized data with bounded retries, select the
    metric learner with the least loss, and write the final groups'
    representatives back row by row.

    The components the orchestrator calls but does not define are
    parameters: the resampler's row count, the pair draw and the labeller,
    the candidate learners and their losses, and the initial and final
    clusterings. */
module Framework {
  import opened Wrappers
  import Anonymity
  import Labelling
  import Selection
  import Sanitize

  /** The opaque collaborators of one run. */
  datatype Components<!P, !L, !T, K, R> = Components(
    /** Rows after `resample_data_into_blocks`, and the factor it reports. */
    resampledRows: nat,
    resampleFactor: int,
    /** The sampled pairs at a fraction (in tenths) of the pre-sanitized data. */
    draw: nat -> Labelling.Draw<P>,
    /** The similarity labeller, given a draw and the cluster cap. */
    labeller: (Labelling.Draw<P>, nat) -> seq<bool>,
    /** The candidate metric learners, in registry order. */
    learners: seq<L>,
    /** A learner's loss once trained on the labelled pairs and used to sanitize at a level. */
    loss: (L, seq<P>, seq<bool>, int) -> T,
    /** The `<` on losses. */
    lt: (T, T) -> bool,
    /** The clustering engine's groups for the pre-sanitization, with the
        similarity list's own metric, at a level. */
    initCluster: int -> seq<Sanitize.Group<K, R>>,
    /** The clustering engine's groups for the final sanitization with a
        learner's metric, trained on the labelled pairs, at a level. */
    cluster: (L, seq<P>, seq<bool>, int) -> seq<Sanitize.Group<K, R>>,
    /** The number of columns of the data handed to the final sanitization. */
    dataWidth: nat)

  /** The exceptions a run raises on its own account. */
  datatype RunError = DataTooSimilar | NoMetricCandidates | ColumnLengthMismatch

  /** What a run reports: the sanitized rows, the anonymity level used,
      whether the data was resampled, the chosen learner and the labelled
      pairs it was trained on. */
  datatype Report<P, L, K, R> = Report(rows: seq<Sanitize.Row<K, R>>, anonymityLevel: int, resampled: bool,
                                       learner: L, labels: seq<bool>, pairs: seq<P>)

  /** The anonymity level a run ends up using for `rows` input rows. */
  function RunLevel<P, L, T, K, R>(k: int, rows: nat, c: Components<P, L, T, K, R>): (level: int)
    ensures Anonymity.CanEnsureKAnonymity(k, rows) ==> level == k
    ensures !Anonymity.CanEnsureKAnonymity(k, rows) ==>
      level <= Anonymity.FindMaxK(c.resampledRows) && level <= k * rows
      && (level == Anonymity.FindMaxK(c.resampledRows) || level == k * rows)
  {
    if Anonymity.CanEnsureKAnonymity(k, rows) then k
    else Anonymity.ChangeAnonymityLevel(k, rows, c.resampledRows, c.resampleFactor)
  }

  /** Learner `b` has a loss no other candidate beats, and every earlier
      candidate's loss is strictly greater: the first minimal loss. */
  ghost predicate FirstLeastLoss<P, L, T, K, R>(c: Components<P, L, T, K, R>, b: nat,
                                                pairs: seq<P>, labels: seq<bool>, level: int)
    requires b < |c.learners|
  {
    && (forall j :: 0 <= j < |c.learners| ==>
          !c.lt(c.loss(c.learners[j], pairs, labels, level), c.loss(c.learners[b], pairs, labels, level)))
    && (forall j :: 0 <= j < b ==>
          c.lt(c.loss(c.learners[b], pairs, labels, level), c.loss(c.learners[j], pairs, labels, level)))
  }

  /** The pre-sanitization (`_presanitized`) fails on its column
      assignment: the initial clustering has no member keys at all while the
      data has columns. */
  predicate PresanitizeFails<P, L, T, K, R>(c: Components<P, L, T, K, R>, level: int) {
    c.dataWidth > 0 && Sanitize.TotalSize(c.initCluster(level)) == 0
  }

  /** The learner at the first least loss clusters into groups with no
      member keys at all: the final sanitization then has no rows. */
  ghost predicate ChosenGroupsEmpty<P, L, T, K, R>(c: Components<P, L, T, K, R>,
                                                   pairs: seq<P>, labels: seq<bool>, level: int)
  {
    exists b :: 0 <= b < |c.learners| && FirstLeastLoss(c, b, pairs, labels, level)
      && Sanitize.TotalSize(c.cluster(c.learners[b], pairs, labels, level)) == 0
  }

  /** At most one learner has the first least loss. */
  lemma FirstLeastLossUnique<P, L, T, K, R>(c: Components<P, L, T, K, R>, b: nat, b': nat,
                                            pairs: seq<P>, labels: seq<bool>, level: int)
    requires b < |c.learners| && b' < |c.learners|
    requires FirstLeastLoss(c, b, pairs, labels, level) && FirstLeastLoss(c, b', pairs, labels, level)
    ensures b == b'
  {
    var lb, lb' := c.loss(c.learners[b], pairs, labels, level), c.loss(c.learners[b'], pairs, labels, level);
    assert !c.lt(lb', lb) && !c.lt(lb, lb');
    assert b < b' ==> c.lt(lb', lb);
    assert b' < b ==> c.lt(lb, lb');
  }

  /** `run` for a verified table of `rows` rows at requested level `k`. */
  method Run<P, L, T(==,!new), K, R>(k: int, rows: nat, c: Components<P, L, T, K, R>)
    returns (r: Result<Report<P, L, K, R>, RunError>)
    requires Selection.StrictTotalOrder(c.lt)
    ensures r == Failure(DataTooSimilar) <==>
      !PresanitizeFails(c, RunLevel(k, rows, c))
      && forall j :: 0 <= j <= Labelling.MaxSubsampleTries ==>
           Labelling.Attempt(c.draw, c.labeller, Labelling.InitialFractionTenths, Labelling.InitialMaxClusters, j) == []
    ensures var sub := Labelling.Subsample(c.draw, c.labeller, Labelling.InitialFractionTenths, 0,
                                           Labelling.InitialMaxClusters);
      r == Failure(NoMetricCandidates) <==>
        !PresanitizeFails(c, RunLevel(k, rows, c)) && sub.Success? && |c.learners| == 0
    ensures var sub := Labelling.Subsample(c.draw, c.labeller, Labelling.InitialFractionTenths, 0,
                                           Labelling.InitialMaxClusters);
      r == Failure(ColumnLengthMismatch) <==>
        PresanitizeFails(c, RunLevel(k, rows, c))
        || (sub.Success? && |c.learners| > 0 && c.dataWidth > 0
            && ChosenGroupsEmpty(c, sub.value.pairs, sub.value.labels, RunLevel(k, rows, c)))
    ensures r.Success? ==> r.value.resampled == !Anonymity.CanEnsureKAnonymity(k, rows)
    ensures r.Success? ==> r.value.anonymityLevel == RunLevel(k, rows, c)
    ensures r.Success? ==> |r.value.labels| > 0
    ensures r.Success? ==>
      (exists j :: 0 <= j <= Labelling.MaxSubsampleTries
        && r.value.labels == Labelling.Attempt(c.draw, c.labeller, Labelling.InitialFractionTenths, Labelling.InitialMaxClusters, j)
        && r.value.pairs == c.draw(Labelling.InitialFractionTenths + j).pairs
        && forall i :: 0 <= i < j ==>
             Labelling.Attempt(c.draw, c.labeller, Labelling.InitialFractionTenths, Labelling.InitialMaxClusters, i) == [])
    ensures r.Success? ==>
      exists b :: 0 <= b < |c.learners| && r.value.learner == c.learners[b]
        && FirstLeastLoss(c, b, r.value.pairs, r.value.labels, r.value.anonymityLevel)
    ensures r.Success? ==>
      var groups := c.cluster(r.value.learner, r.value.pairs, r.value.labels, r.value.anonymityLevel);
      r.value.rows == Sanitize.SanitizeRows(groups) && |r.value.rows| == Sanitize.TotalSize(groups)
      && (Sanitize.TotalSize(groups) > 0 || c.dataWidth == 0)
  {
    var feasible := Anonymity.CanEnsureKAnonymity(k, rows);
    var level := if feasible then k
                 else Anonymity.ChangeAnonymityLevel(k, rows, c.resampledRows, c.resampleFactor);

    var presanitized := Sanitize.SanitizeData(c.initCluster(level), c.dataWidth);
    if presanitized.Failure? {
      return Failure(ColumnLengthMismatch);
    }

    var start := Labelling.InitialFractionTenths;
    var cap := Labelling.InitialMaxClusters;
    var sub := Labelling.Subsample(c.draw, c.labeller, start, 0, cap);
    Labelling.RunLabelling(c.draw, c.labeller);
    if sub.Failure? {
      return Failure(DataTooSimilar);
    }
    var labels, pairs := sub.value.labels, sub.value.pairs;
    var tail := Finish(c, pairs, labels, level);
    if tail.Failure? {
      return Failure(tail.error);
    }
    r := Success(Report(tail.value.1, level, !feasible, tail.value.0, labels, pairs));
  }

  /** The tail of `run` once pairs are labelled: pick the learner with the
      first least loss, then sanitize with its clustering. */
  method Finish<P, L, T(==,!new), K, R>(c: Components<P, L, T, K, R>, pairs: seq<P>, labels: seq<bool>, level: int)
    returns (r: Result<(L, seq<Sanitize.Row<K, R>>), RunError>)
    requires Selection.StrictTotalOrder(c.lt)
    ensures r.Failure? ==> r.error == NoMetricCandidates || r.error == ColumnLengthMismatch
    ensures r == Failure(NoMetricCandidates) <==> |c.learners| == 0
    ensures r == Failure(ColumnLengthMismatch) <==>
      |c.learners| > 0 && c.dataWidth > 0 && ChosenGroupsEmpty(c, pairs, labels, level)
    ensures r.Success? ==>
      exists b :: 0 <= b < |c.learners| && r.value.0 == c.learners[b] && FirstLeastLoss(c, b, pairs, labels, level)
    ensures r.Success? ==>
      var groups := c.cluster(r.value.0, pairs, labels, level);
      r.value.1 == Sanitize.SanitizeRows(groups) && |r.value.1| == Sanitize.TotalSize(groups)
      && (Sanitize.TotalSize(groups) > 0 || c.dataWidth == 0)
  {
    var loss := (l: L) => c.loss(l, pairs, labels, level);
    Selection.StrictTotalOrderOn(Selection.Losses(c.learners, loss), c.lt);
    var chosen := Selection.FindMetricLearning(c.learners, loss, c.lt);
    if chosen.Failure? {
      return Failure(NoMetricCandidates);
    }
    var losses := Selection.Losses(c.learners, loss);
    var b := Selection.SelectLearner(losses, c.lt).value;
    assert chosen.value == c.learners[b];
    assert forall j :: 0 <= j < |c.learners| ==> losses[j] == loss(c.learners[j]);
    assert FirstLeastLoss(c, b, pairs, labels, level);
    forall b' | 0 <= b' < |c.learners| && FirstLeastLoss(c, b', pairs, labels, level)
      ensures b' == b
    {
      FirstLeastLossUnique(c, b, b', pairs, labels, level);
    }

    var sanitized := Sanitize.SanitizeData(c.cluster(chosen.value, pairs, labels, level), c.dataWidth);
    if sanitized.Failure? {
      return Failure(ColumnLengthMismatch);
    }
    r := Success((chosen.value, sanitized.value));
  }
}

=== FILE: labelling.dfy ===
/** The bounded labelling retry of the orchestrator (`_subsample` in
    framework/framework.py). Each attempt draws a sample of the
    pre-sanitized data at the current fraction, pairs its rows, caps the
    cluster count by the number of extracted interest values and asks the
    similarity labeller for labels. An empty label list triggers another
    attempt with the counter raised by one and the fraction by one tenth;
    once the counter exceeds five the run fails.

    The random sample, the pair sampler and the labeller are not modelled:
    `draw` gives the outcome of sampling at a fraction (in tenths) and
    `labeller` the labeller's answer for a draw and a cluster cap. */
module Labelling {
  import opened Wrappers

  /** `self.max_clusters` before any attempt. */
  const InitialMaxClusters: nat := 8
  /** The largest counter value for which an attempt still runs. */
  const MaxSubsampleTries: nat := 5
  /** The default `sub_sampling_size` of 0.1, in tenths. */
  const InitialFractionTenths: nat := 1

  /** What one sampling step yields: the sampled pairs and how many
      interest values the labeller extracted from them. */
  datatype Draw<P> = Draw(pairs: seq<P>, interested: nat)

  /** A successful labelling: the labels, the pairs they belong to, the
      counter and fraction of the attempt that produced them, and the
      cluster cap left in force. */
  datatype Labelled<P> = Labelled(labels: seq<bool>, pairs: seq<P>, tries: nat, tenths: nat, maxClusters: nat)

  /** The `ValueError` raised once the retry budget is spent. */
  datatype LabelError = DataTooSimilar

  /** The cap update: `max_clusters` drops to the number of interest values
      when that is smaller, and otherwise stays. */
  function CapClusters(maxClusters: nat, interested: nat): (r: nat)
    ensures r <= maxClusters && r <= interested
    ensures r == maxClusters || r == interested
  {
    if interested < maxClusters then interested else maxClusters
  }

  /** One call of `_subsample` together with its self-recursive retries. */
  function Subsample<P>(draw: nat -> Draw<P>, labeller: (Draw<P>, nat) -> seq<bool>,
                        tenths: nat, tries: nat, maxClusters: nat): (r: Result<Labelled<P>, LabelError>)
    ensures tries > MaxSubsampleTries ==> r == Failure(DataTooSimilar)
    ensures r.Success? ==> |r.value.labels| > 0
    ensures r.Success? ==> tries <= r.value.tries <= MaxSubsampleTries
    ensures r.Success? ==> r.value.tenths == tenths + (r.value.tries - tries)
    ensures r.Success? ==> r.value.maxClusters <= maxClusters
    decreases MaxSubsampleTries + 1 - tries
  {
    if tries > MaxSubsampleTries then Failure(DataTooSimilar)
    else
      var d := draw(tenths);
      var cap := CapClusters(maxClusters, d.interested);
      var labels := labeller(d, cap);
      if labels == [] then Subsample(draw, labeller, tenths + 1, tries + 1, cap)
      else Success(Labelled(labels, d.pairs, tries, tenths, cap))
  }

  /** The number of interest values drawn at attempt `i` of a chain that
      starts at fraction `tenths`. */
  function InterestedAt<P>(draw: nat -> Draw<P>, tenths: nat, i: nat): nat {
    draw(tenths + i).interested
  }

  /** The cluster cap in force during attempt `j` of a chain that starts at
      fraction `tenths` with cap `maxClusters`: every draw up to and
      including attempt `j` has lowered it. */
  function CapAt<P>(draw: nat -> Draw<P>, tenths: nat, maxClusters: nat, j: nat): nat {
    if j == 0 then CapClusters(maxClusters, InterestedAt(draw, tenths, 0))
    else CapClusters(CapAt(draw, tenths, maxClusters, j - 1), InterestedAt(draw, tenths, j))
  }

  /** The cap in force at attempt `j` is the smallest of the starting cap
      and the interest counts of every draw up to and including `j`. */
  lemma {:induction false} CapAtIsMinimum<P>(draw: nat -> Draw<P>, tenths: nat, maxClusters: nat, j: nat)
    ensures CapAt(draw, tenths, maxClusters, j) <= maxClusters
    ensures forall i :: 0 <= i <= j ==> CapAt(draw, tenths, maxClusters, j) <= InterestedAt(draw, tenths, i)
    ensures CapAt(draw, tenths, maxClusters, j) == maxClusters
         || exists i :: 0 <= i <= j && CapAt(draw, tenths, maxClusters, j) == InterestedAt(draw, tenths, i)
  {
    if j > 0 {
      CapAtIsMinimum(draw, tenths, maxClusters, j - 1);
    }
  }

  /** The labels attempt `j` of such a chain produces. */
  function Attempt<P>(draw: nat -> Draw<P>, labeller: (Draw<P>, nat) -> seq<bool>,
                      tenths: nat, maxClusters: nat, j: nat): seq<bool>
  {
    labeller(draw(tenths + j), CapAt(draw, tenths, maxClusters, j))
  }

  /** Shifting the start of a chain by one attempt leaves the caps in force. */
  lemma {:induction false} CapAtShift<P>(draw: nat -> Draw<P>, tenths: nat, maxClusters: nat, j: nat)
    ensures CapAt(draw, tenths, maxClusters, j + 1)
         == CapAt(draw, tenths + 1, CapClusters(maxClusters, draw(tenths).interested), j)
  {
    assert InterestedAt(draw, tenths, j + 1) == InterestedAt(draw, tenths + 1, j);
    if j > 0 {
      CapAtShift(draw, tenths, maxClusters, j - 1);
    }
  }

  /** Attempt `j + 1` of a chain is attempt `j` of the chain its first retry starts. */
  lemma AttemptShift<P>(draw: nat -> Draw<P>, labeller: (Draw<P>, nat) -> seq<bool>,
                        tenths: nat, maxClusters: nat, j: nat)
    ensures Attempt(draw, labeller, tenths, maxClusters, j + 1)
         == Attempt(draw, labeller, tenths + 1, CapClusters(maxClusters, draw(tenths).interested), j)
  {
    CapAtShift(draw, tenths, maxClusters, j);
    assert tenths + (j + 1) == (tenths + 1) + j;
  }

  /** The first attempt of a chain is the labeller's answer for the first
      draw under the first cap. */
  lemma AttemptZero<P>(draw: nat -> Draw<P>, labeller: (Draw<P>, nat) -> seq<bool>, tenths: nat, maxClusters: nat)
    ensures CapAt(draw, tenths, maxClusters, 0) == CapClusters(maxClusters, draw(tenths).interested)
    ensures Attempt(draw, labeller, tenths, maxClusters, 0)
         == labeller(draw(tenths), CapClusters(maxClusters, draw(tenths).interested))
  {
    assert tenths + 0 == tenths;
  }

  /** An attempt with labels ends the chain. */
  lemma SubsampleStops<P>(draw: nat -> Draw<P>, labeller: (Draw<P>, nat) -> seq<bool>,
                          tenths: nat, tries: nat, maxClusters: nat)
    requires tries <= MaxSubsampleTries
    requires Attempt(draw, labeller, tenths, maxClusters, 0) != []
    ensures Subsample(draw, labeller, tenths, tries, maxClusters)
         == Success(Labelled(Attempt(draw, labeller, tenths, maxClusters, 0), draw(tenths).pairs,
                             tries, tenths, CapAt(draw, tenths, maxClusters, 0)))
  {
    AttemptZero(draw, labeller, tenths, maxClusters);
  }

  /** An attempt with no labels hands over to the retry. */
  lemma SubsampleRetries<P>(draw: nat -> Draw<P>, labeller: (Draw<P>, nat) -> seq<bool>,
                            tenths: nat, tries: nat, maxClusters: nat)
    requires tries <= MaxSubsampleTries
    requires Attempt(draw, labeller, tenths, maxClusters, 0) == []
    ensures Subsample(draw, labeller, tenths, tries, maxClusters)
         == Subsample(draw, labeller, tenths + 1, tries + 1, CapClusters(maxClusters, draw(tenths).interested))
  {
    AttemptZero(draw, labeller, tenths, maxClusters);
  }

  /** Attempt `j > 0` of a chain, seen from the chain its first retry starts. */
  lemma ShiftBack<P>(draw: nat -> Draw<P>, labeller: (Draw<P>, nat) -> seq<bool>,
                     tenths: nat, maxClusters: nat, j: nat)
    requires j > 0
    ensures Attempt(draw, labeller, tenths, maxClusters, j)
         == Attempt(draw, labeller, tenths + 1, CapClusters(maxClusters, draw(tenths).interested), j - 1)
    ensures CapAt(draw, tenths, maxClusters, j)
         == CapAt(draw, tenths + 1, CapClusters(maxClusters, draw(tenths).interested), j - 1)
  {
    AttemptShift(draw, labeller, tenths, maxClusters, j - 1);
    CapAtShift(draw, tenths, maxClusters, j - 1);
  }

  /** Prepending an empty attempt to a chain whose attempt `t - 1` is the
      first with labels makes attempt `t` the first with labels. */
  lemma PrependEmptyAttempt<P>(draw: nat -> Draw<P>, labeller: (Draw<P>, nat) -> seq<bool>,
                               tenths: nat, maxClusters: nat, next: nat, cap: nat, t: nat, v: Labelled<P>)
    requires t > 0 && next == tenths + 1 && cap == CapClusters(maxClusters, draw(tenths).interested)
    requires Attempt(draw, labeller, tenths, maxClusters, 0) == []
    requires v.labels == Attempt(draw, labeller, next, cap, t - 1)
    requires v.maxClusters == CapAt(draw, next, cap, t - 1)
    requires forall j :: 0 <= j < t - 1 ==> Attempt(draw, labeller, next, cap, j) == []
    ensures v.labels == Attempt(draw, labeller, tenths, maxClusters, t)
    ensures v.maxClusters == CapAt(draw, tenths, maxClusters, t)
    ensures forall j :: 0 <= j < t ==> Attempt(draw, labeller, tenths, maxClusters, j) == []
  {
    ShiftBack(draw, labeller, tenths, maxClusters, t);
    forall j | 0 < j < t
      ensures Attempt(draw, labeller, tenths, maxClusters, j) == []
    {
      ShiftBack(draw, labeller, tenths, maxClusters, j);
    }
  }

  /** A successful `_subsample` returns the first attempt whose labels are
      non-empty, with the cap in force at that attempt. */
  lemma {:induction false} SubsampleSuccessIsFirst<P>(draw: nat -> Draw<P>, labeller: (Draw<P>, nat) -> seq<bool>,
                                                     tenths: nat, tries: nat, maxClusters: nat)
    requires Subsample(draw, labeller, tenths, tries, maxClusters).Success?
    ensures var v := Subsample(draw, labeller, tenths, tries, maxClusters).value;
      && v.labels == Attempt(draw, labeller, tenths, maxClusters, v.tries - tries)
      && v.pairs == draw(v.tenths).pairs
      && v.maxClusters == CapAt(draw, tenths, maxClusters, v.tries - tries)
      && forall j :: 0 <= j < v.tries - tries ==> Attempt(draw, labeller, tenths, maxClusters, j) == []
    decreases MaxSubsampleTries - tries
  {
    assert tries <= MaxSubsampleTries;
    if Attempt(draw, labeller, tenths, maxClusters, 0) != [] {
      SubsampleStops(draw, labeller, tenths, tries, maxClusters);
    } else {
      var cap := CapClusters(maxClusters, draw(tenths).interested);
      SubsampleRetries(draw, labeller, tenths, tries, maxClusters);
      var v := Subsample(draw, labeller, tenths, tries, maxClusters).value;
      var v' := Subsample(draw, labeller, tenths + 1, tries + 1, cap).value;
      assert v == v';
      SubsampleSuccessIsFirst(draw, labeller, tenths + 1, tries + 1, cap);
      var t := v.tries - tries;
      assert v'.tries - (tries + 1) == t - 1;
      PrependEmptyAttempt(draw, labeller, tenths, maxClusters, tenths + 1, cap, t, v);
    }
  }

  /** `_subsample` raises only after every attempt the budget allows came
      back with no labels. */
  lemma {:induction false} SubsampleFailureMeansAllEmpty<P>(draw: nat -> Draw<P>, labeller: (Draw<P>, nat) -> seq<bool>,
                                                           tenths: nat, tries: nat, maxClusters: nat)
    requires tries <= MaxSubsampleTries
    requires Subsample(draw, labeller, tenths, tries, maxClusters).Failure?
    ensures forall j :: 0 <= j <= MaxSubsampleTries - tries ==> Attempt(draw, labeller, tenths, maxClusters, j) == []
    decreases MaxSubsampleTries - tries
  {
    AttemptZero(draw, labeller, tenths, maxClusters);
    SubsampleRetries(draw, labeller, tenths, tries, maxClusters);
    if tries < MaxSubsampleTries {
      var cap := CapClusters(maxClusters, draw(tenths).interested);
      SubsampleFailureMeansAllEmpty(draw, labeller, tenths + 1, tries + 1, cap);
      forall j | 0 < j <= MaxSubsampleTries - tries
        ensures Attempt(draw, labeller, tenths, maxClusters, j) == []
      {
        ShiftBack(draw, labeller, tenths, maxClusters, j);
      }
    }
  }

  /** `_subsample` succeeds exactly when some attempt within the budget
      yields a non-empty label list. */
  lemma SubsampleSucceedsIff<P>(draw: nat -> Draw<P>, labeller: (Draw<P>, nat) -> seq<bool>,
                                tenths: nat, tries: nat, maxClusters: nat)
    requires tries <= MaxSubsampleTries
    ensures Subsample(draw, labeller, tenths, tries, maxClusters).Success?
        <==> exists j :: 0 <= j <= MaxSubsampleTries - tries && Attempt(draw, labeller, tenths, maxClusters, j) != []
  {
    var r := Subsample(draw, labeller, tenths, tries, maxClusters);
    if r.Success? {
      SubsampleSuccessIsFirst(draw, labeller, tenths, tries, maxClusters);
      assert Attempt(draw, labeller, tenths, maxClusters, r.value.tries - tries) != [];
    } else {
      SubsampleFailureMeansAllEmpty(draw, labeller, tenths, tries, maxClusters);
    }
  }

  /** A run's labelling starts at a tenth of the data with the counter at
      zero: at most six attempts run, so a success never samples more than
      six tenths of the data, and the cap never exceeds eight. */
  lemma AtMostSixAttempts<P>(draw: nat -> Draw<P>, labeller: (Draw<P>, nat) -> seq<bool>)
    ensures var r := Subsample(draw, labeller, InitialFractionTenths, 0, InitialMaxClusters);
      r.Success? ==> r.value.tries + 1 <= 6 && r.value.tenths <= 6 && r.value.maxClusters <= 8
  {
  }

  /** The labelling a run performs, starting at a tenth of the data with
      the counter at zero and the cap at eight: it fails exactly when all
      six attempts come back empty, and otherwise returns the labels of the
      first attempt that does not, with the pairs drawn for it. */
  lemma RunLabelling<P>(draw: nat -> Draw<P>, labeller: (Draw<P>, nat) -> seq<bool>)
    ensures var r := Subsample(draw, labeller, InitialFractionTenths, 0, InitialMaxClusters);
      r.Failure? <==>
        forall j :: 0 <= j <= MaxSubsampleTries ==> Attempt(draw, labeller, InitialFractionTenths, InitialMaxClusters, j) == []
    ensures var r := Subsample(draw, labeller, InitialFractionTenths, 0, InitialMaxClusters);
      r.Success? ==>
        exists j :: 0 <= j <= MaxSubsampleTries
          && r.value.labels == Attempt(draw, labeller, InitialFractionTenths, InitialMaxClusters, j)
          && r.value.pairs == draw(InitialFractionTenths + j).pairs
          && forall i :: 0 <= i < j ==> Attempt(draw, labeller, InitialFractionTenths, InitialMaxClusters, i) == []
  {
    var r := Subsample(draw, labeller, InitialFractionTenths, 0, InitialMaxClusters);
    SubsampleSucceedsIff(draw, labeller, InitialFractionTenths, 0, InitialMaxClusters);
    if r.Success? {
      SubsampleSuccessIsFirst(draw, labeller, InitialFractionTenths, 0, InitialMaxClusters);
      assert 0 <= r.value.tries <= MaxSubsampleTries;
    }
  }
}

=== FILE: prepare_data.dfy ===
/** The train/test split of labelled pairs (`prepare_data` in helper.py).
    The pairs are unzipped into their first and second records, and the two
    record lists and the labels are all cut at `int(len(labels) *
    train_portion)`, with Python's slicing. The portion is an exact ratio
    `num / den`; `int()` truncates toward zero. */
module PrepareData {
  import opened Wrappers
  import PySlice

  /** A positive denominator. */
  type Positive = d: nat | d > 0 witness 1

  /** The six arrays `prepare_data` returns. */
  datatype Split<X, Y> = Split(x1Train: seq<X>, x2Train: seq<X>, yTrain: seq<Y>,
                               x1Test: seq<X>, x2Test: seq<X>, yTest: seq<Y>)

  /** `X1, X2 = zip(*data_pair)` cannot unpack an empty pair list. */
  datatype PrepareError = NotEnoughValuesToUnpack

  /** Python's `int()` of the quotient `a / d`: truncation toward zero. */
  function TruncDiv(a: int, d: Positive): int {
    if a >= 0 then a / d else -((-a) / d)
  }

  /** The truncated quotient is the largest multiple of `d` not past `a` on
      `a`'s own side of zero. */
  lemma TruncDivTruncates(a: int, d: Positive)
    ensures var q := TruncDiv(a, d);
      && (a >= 0 ==> q >= 0 && d * q <= a < d * (q + 1))
      && (a < 0 ==> q <= 0 && d * (-q) <= -a < d * (-q + 1))
  {
    if a >= 0 {
      DivBounds(a, d);
    } else {
      DivBounds(-a, d);
    }
  }

  /** Euclidean division of a non-negative number brackets it between two multiples. */
  lemma DivBounds(b: nat, d: Positive)
    ensures b / d >= 0 && d * (b / d) <= b < d * (b / d + 1)
  {
    var q, r := b / d, b % d;
    assert b == d * q + r && 0 <= r < d;
    assert d * (q + 1) == d * q + d;
  }

  /** The cut position `int(s_size * train_portion)`. */
  function Cut(size: nat, num: int, den: Positive): int {
    TruncDiv(size * num, den)
  }

  /** The cut is `size * num / den` truncated toward zero. */
  lemma CutTruncates(size: nat, num: int, den: Positive)
    ensures var c := Cut(size, num, den);
      && (size * num >= 0 ==> 0 <= c && den * c <= size * num < den * (c + 1))
      && (size * num < 0 ==> c <= 0 && den * (-c) <= -(size * num) < den * (-c + 1))
  {
    TruncDivTruncates(size * num, den);
  }

  /** For a portion in `[0, 1]` the cut lies inside the list. */
  lemma CutInRange(size: nat, num: int, den: Positive)
    requires 0 <= num <= den
    ensures 0 <= Cut(size, num, den) <= size
  {
    var a := size * num;
    assert 0 <= a by {
      NonNegativeProduct(size, num);
    }
    assert a <= size * den by {
      NonNegativeProduct(size, den - num);
      assert size * (den - num) == size * den - a;
    }
    var c := Cut(size, num, den);
    assert c == a / den;
    TruncDivTruncates(a, den);
    assert den * c <= a;
    assert den * (c - size) == den * c - size * den;
    NonPositiveFactor(den, c - size);
  }

  /** The product of two non-negative numbers is non-negative. */
  lemma NonNegativeProduct(x: int, y: int)
    requires x >= 0 && y >= 0
    ensures x * y >= 0
  {
  }

  /** A product with a positive factor that is not positive has a non-positive other factor. */
  lemma NonPositiveFactor(d: Positive, x: int)
    requires d * x <= 0
    ensures x <= 0
  {
    assert x >= 1 ==> d * x >= d * 1;
  }

  /** The first records of the pairs. */
  function Firsts<X>(pairs: seq<(X, X)>): (xs: seq<X>)
    ensures |xs| == |pairs|
    ensures forall i :: 0 <= i < |pairs| ==> xs[i] == pairs[i].0
  {
    seq(|pairs|, i requires 0 <= i < |pairs| => pairs[i].0)
  }

  /** The second records of the pairs. */
  function Seconds<X>(pairs: seq<(X, X)>): (xs: seq<X>)
    ensures |xs| == |pairs|
    ensures forall i :: 0 <= i < |pairs| ==> xs[i] == pairs[i].1
  {
    seq(|pairs|, i requires 0 <= i < |pairs| => pairs[i].1)
  }

  /** `prepare_data(data_pair, similarity_label, num / den)`. */
  function Prepare<X, Y>(pairs: seq<(X, X)>, labels: seq<Y>, num: int, den: Positive): (r: Result<Split<X, Y>, PrepareError>)
    ensures |pairs| == 0 <==> r == Failure(NotEnoughValuesToUnpack)
    ensures r.Success? ==> |r.value.x1Train| == |r.value.x2Train| <= |pairs| && |r.value.yTrain| <= |labels|
    ensures r.Success? ==> forall i :: 0 <= i < |r.value.x1Train| ==>
      r.value.x1Train[i] == pairs[i].0 && r.value.x2Train[i] == pairs[i].1
    ensures r.Success? ==> forall i :: 0 <= i < |r.value.yTrain| ==> r.value.yTrain[i] == labels[i]
  {
    if |pairs| == 0 then Failure(NotEnoughValuesToUnpack)
    else Success(SplitAt(pairs, labels, Cut(|labels|, num, den)))
  }

  /** The six slices at one cut position `c`. */
  function SplitAt<X, Y>(pairs: seq<(X, X)>, labels: seq<Y>, c: int): (s: Split<X, Y>)
    ensures |s.x1Train| == |s.x2Train| <= |pairs| && |s.yTrain| <= |labels|
    ensures forall i :: 0 <= i < |s.x1Train| ==> s.x1Train[i] == pairs[i].0 && s.x2Train[i] == pairs[i].1
    ensures forall i :: 0 <= i < |s.yTrain| ==> s.yTrain[i] == labels[i]
  {
    var x1, x2 := Firsts(pairs), Seconds(pairs);
    Split(PySlice.Take(x1, c), PySlice.Take(x2, c), PySlice.Take(labels, c),
          PySlice.Drop(x1, c), PySlice.Drop(x2, c), PySlice.Drop(labels, c))
  }

  /** Cutting inside lists of equal length gives train parts of length `c`
      and test parts that continue at position `c`. */
  lemma SplitAtInside<X, Y>(pairs: seq<(X, X)>, labels: seq<Y>, c: int)
    requires |pairs| == |labels| && 0 <= c <= |labels|
    ensures var s := SplitAt(pairs, labels, c);
      && |s.x1Train| == |s.x2Train| == |s.yTrain| == c
      && |s.x1Test| == |s.x2Test| == |s.yTest| == |labels| - c
      && forall i :: 0 <= i < |s.yTest| ==>
           s.x1Test[i] == pairs[c + i].0 && s.x2Test[i] == pairs[c + i].1 && s.yTest[i] == labels[c + i]
  {
    assert PySlice.Bound(c, |labels|) == c;
  }

  /** The split recovers its input: each train part followed by its test
      part is the whole list, whatever the portion. */
  lemma SplitRecovers<X, Y>(pairs: seq<(X, X)>, labels: seq<Y>, num: int, den: Positive)
    requires |pairs| > 0
    ensures var s := Prepare(pairs, labels, num, den).value;
      && s.x1Train + s.x1Test == Firsts(pairs)
      && s.x2Train + s.x2Test == Seconds(pairs)
      && s.yTrain + s.yTest == labels
  {
    var c := Cut(|labels|, num, den);
    PySlice.TakeDropRecovers(Firsts(pairs), c);
    PySlice.TakeDropRecovers(Seconds(pairs), c);
    PySlice.TakeDropRecovers(labels, c);
  }

  /** Shared cut: for a portion in `[0, 1]` and as many labels as pairs,
      every train part has exactly `int(len * portion)` entries, so position
      `i` of the three train parts (and of the three test parts) refers to
      the same original pair. */
  lemma {:induction false} SharedCut<X, Y>(pairs: seq<(X, X)>, labels: seq<Y>, num: int, den: Positive)
    requires |pairs| > 0 && |pairs| == |labels|
    requires 0 <= num <= den
    ensures var s := Prepare(pairs, labels, num, den).value;
      var c := Cut(|labels|, num, den);
      && 0 <= c <= |labels|
      && |s.x1Train| == |s.x2Train| == |s.yTrain| == c
      && |s.x1Test| == |s.x2Test| == |s.yTest| == |labels| - c
      && forall i :: 0 <= i < |s.yTest| ==>
           s.x1Test[i] == pairs[c + i].0 && s.x2Test[i] == pairs[c + i].1 && s.yTest[i] == labels[c + i]
  {
    PrepareCutsAt(pairs, labels, num, den);
    CutPositions(pairs, labels, num, den);
  }

  /** For any non-negative portion, even one above 1, each train part holds
      the first `cut` entries, or all of them when the cut lies past the end. */
  lemma {:induction false} TrainLength<X, Y>(pairs: seq<(X, X)>, labels: seq<Y>, num: int, den: Positive)
    requires |pairs| > 0 && num >= 0
    ensures var s := Prepare(pairs, labels, num, den).value;
      var c := Cut(|labels|, num, den);
      && c >= 0
      && |s.x1Train| == |s.x2Train| == (if c <= |pairs| then c else |pairs|)
      && |s.yTrain| == (if c <= |labels| then c else |labels|)
  {
    PrepareCutsAt(pairs, labels, num, den);
    NonNegativeProduct(|labels|, num);
    CutTruncates(|labels|, num, den);
    var c := Cut(|labels|, num, den);
    PySlice.TakeLength(Firsts(pairs), c);
    PySlice.TakeLength(Seconds(pairs), c);
    PySlice.TakeLength(labels, c);
  }

  /** A non-empty pair list is split at the cut. */
  lemma PrepareCutsAt<X, Y>(pairs: seq<(X, X)>, labels: seq<Y>, num: int, den: Positive)
    requires |pairs| > 0
    ensures Prepare(pairs, labels, num, den) == Success(SplitAt(pairs, labels, Cut(|labels|, num, den)))
  {
  }

  /** The split at the cut of a portion in `[0, 1]`, for lists of equal length. */
  lemma {:induction false} CutPositions<X, Y>(pairs: seq<(X, X)>, labels: seq<Y>, num: int, den: Positive)
    requires |pairs| == |labels|
    requires 0 <= num <= den
    ensures var c := Cut(|labels|, num, den);
      var s := SplitAt(pairs, labels, c);
      && 0 <= c <= |labels|
      && |s.x1Train| == |s.x2Train| == |s.yTrain| == c
      && |s.x1Test| == |s.x2Test| == |s.yTest| == |labels| - c
      && forall i :: 0 <= i < |s.yTest| ==>
           s.x1Test[i] == pairs[c + i].0 && s.x2Test[i] == pairs[c + i].1 && s.yTest[i] == labels[c + i]
  {
    CutInRange(|labels|, num, den);
    SplitAtInside(pairs, labels, Cut(|labels|, num, den));
  }
}

=== FILE: py_slice.dfy ===
/** Python's slicing of a sequence, `s[a:b]`, `s[:c]` and `s[c:]`.
    Python normalises every bound the same way: a negative bound counts
    from the end, and the result is clamped into `[0, len(s)]`; a slice
    whose normalised start lies past its normalised stop is empty. Both
    `iloc[:, a:b]` in the orchestrator and the list slicing in the
    train/test split follow these rules. */
module PySlice {

  /** The position a Python slice bound `i` denotes in a sequence of length `n`. */
  function Bound(i: int, n: nat): (r: nat)
    ensures r <= n
    ensures 0 <= i <= n ==> r == i
    ensures i > n ==> r == n
    ensures i < 0 && -i <= n ==> r == n + i
    ensures i < 0 && -i > n ==> r == 0
  {
    if i < 0 then (if n + i < 0 then 0 else n + i)
    else if i > n then n
    else i
  }

  /** `s[:c]` */
  function Take<T>(s: seq<T>, c: int): (r: seq<T>)
    ensures |r| == Bound(c, |s|)
    ensures forall i :: 0 <= i < |r| ==> r[i] == s[i]
  {
    s[..Bound(c, |s|)]
  }

  /** `s[c:]` */
  function Drop<T>(s: seq<T>, c: int): (r: seq<T>)
    ensures |r| == |s| - Bound(c, |s|)
    ensures forall i :: 0 <= i < |r| ==> r[i] == s[Bound(c, |s|) + i]
  {
    s[Bound(c, |s|)..]
  }

  /** `s[a:b]` */
  function Slice<T>(s: seq<T>, a: int, b: int): (r: seq<T>)
    ensures Bound(a, |s|) <= Bound(b, |s|) ==> |r| == Bound(b, |s|) - Bound(a, |s|)
    ensures Bound(a, |s|) > Bound(b, |s|) ==> r == []
    ensures forall i :: 0 <= i < |r| ==> r[i] == s[Bound(a, |s|) + i]
  {
    var lo := Bound(a, |s|);
    var hi := Bound(b, |s|);
    if lo <= hi then s[lo..hi] else []
  }

  /** Cutting at any bound and gluing the halves back gives the sequence
      again: `s[:c] + s[c:] == s` for every integer `c`. */
  lemma TakeDropRecovers<T>(s: seq<T>, c: int)
    ensures Take(s, c) + Drop(s, c) == s
  {
    assert s[..Bound(c, |s|)] + s[Bound(c, |s|)..] == s;
  }

  /** For a cut that lies inside the sequence, the first part has exactly
      `c` elements; past the end it has them all. */
  lemma TakeLength<T>(s: seq<T>, c: int)
    requires c >= 0
    ensures |Take(s, c)| == if c <= |s| then c else |s|
  {
  }
}

=== FILE: sanitize.dfy ===
/** Writing representatives back (`_sanitize_data` in framework/framework.py,
    the same loop as `Utilities.sanitize_data` in helper.py): for every
    group the clustering engine returns, in order, and for every member key
    of that group, in order, one output row keyed by the member and holding
    the group's representative. The clustering engine and the
    representative's value are not modelled: the groups are an input and
    `R` is abstract. */
module Sanitize {
  import opened Wrappers

  /** A group found by the clustering engine: its member keys and its representative. */
  datatype Group<K, R> = Group(members: seq<K>, rep: R)

  /** One row of the sanitized table: the index key and its row value. */
  datatype Row<K, R> = Row(key: K, value: R)

  /** The member keys of all groups, in group order and then member order. */
  function Members<K, R>(groups: seq<Group<K, R>>): seq<K> {
    if |groups| == 0 then [] else groups[0].members + Members(groups[1..])
  }

  /** The sum of the group sizes. */
  function TotalSize<K, R>(groups: seq<Group<K, R>>): nat {
    if |groups| == 0 then 0 else |groups[0].members| + TotalSize(groups[1..])
  }

  /** The rows one group contributes. */
  function GroupRows<K, R>(g: Group<K, R>): (rows: seq<Row<K, R>>)
    ensures |rows| == |g.members|
    ensures forall i :: 0 <= i < |rows| ==> rows[i] == Row(g.members[i], g.rep)
  {
    seq(|g.members|, i requires 0 <= i < |g.members| => Row(g.members[i], g.rep))
  }

  /** The sanitized table: one row per member key, keyed in group order and
      then member order. */
  function SanitizeRows<K, R>(groups: seq<Group<K, R>>): (rows: seq<Row<K, R>>)
    ensures |rows| == TotalSize(groups) == |Members(groups)|
    ensures forall i :: 0 <= i < |rows| ==> rows[i].key == Members(groups)[i]
  {
    if |groups| == 0 then []
    else
      var head := GroupRows(groups[0]);
      var tail := SanitizeRows(groups[1..]);
      assert forall i :: |head| <= i < |head| + |tail| ==> (head + tail)[i] == tail[i - |head|];
      head + tail
  }

  /** Every row carries the representative of a group that holds its key. */
  lemma {:induction false} RowFromItsGroup<K, R>(groups: seq<Group<K, R>>, i: nat)
    requires i < |SanitizeRows(groups)|
    ensures exists g :: 0 <= g < |groups| && SanitizeRows(groups)[i].key in groups[g].members
                     && SanitizeRows(groups)[i].value == groups[g].rep
  {
    var head := GroupRows(groups[0]);
    if i < |head| {
      assert SanitizeRows(groups)[i] == head[i];
      assert groups[0].members[i] in groups[0].members;
    } else {
      assert SanitizeRows(groups)[i] == SanitizeRows(groups[1..])[i - |head|];
      RowFromItsGroup(groups[1..], i - |head|);
      var g :| 0 <= g < |groups[1..]| && SanitizeRows(groups[1..])[i - |head|].key in groups[1..][g].members
               && SanitizeRows(groups[1..])[i - |head|].value == groups[1..][g].rep;
      assert groups[1..][g] == groups[g + 1];
    }
  }

  /** Rows of two consecutive runs of groups are the rows of each, in turn. */
  lemma {:induction false} SanitizeRowsAppend<K, R>(a: seq<Group<K, R>>, b: seq<Group<K, R>>)
    ensures SanitizeRows(a + b) == SanitizeRows(a) + SanitizeRows(b)
    ensures TotalSize(a + b) == TotalSize(a) + TotalSize(b)
  {
    if |a| > 0 {
      assert (a + b)[1..] == a[1..] + b;
      SanitizeRowsAppend(a[1..], b);
    } else {
      assert a + b == b;
    }
  }

  /** Row order: member `m` of group `g` lands right after the rows of all
      earlier groups, at position `m` within its group's run, and carries
      that group's representative. */
  lemma {:induction false} SanitizeRowPosition<K, R>(groups: seq<Group<K, R>>, g: nat, m: nat)
    requires g < |groups| && m < |groups[g].members|
    ensures TotalSize(groups[..g]) + m < |SanitizeRows(groups)|
    ensures SanitizeRows(groups)[TotalSize(groups[..g]) + m] == Row(groups[g].members[m], groups[g].rep)
  {
    var before, rest := groups[..g], groups[g..];
    assert groups == before + rest;
    SanitizeRowsAppend(before, rest);
    RowsStartWithFirstGroup(rest, m);
  }

  /** The first rows of a run of groups are those of its first group. */
  lemma RowsStartWithFirstGroup<K, R>(groups: seq<Group<K, R>>, m: nat)
    requires 0 < |groups| && m < |groups[0].members|
    ensures m < |SanitizeRows(groups)|
    ensures SanitizeRows(groups)[m] == Row(groups[0].members[m], groups[0].rep)
  {
    assert SanitizeRows(groups) == GroupRows(groups[0]) + SanitizeRows(groups[1..]);
  }

  /** No key belongs to two different groups. */
  ghost predicate KeysDisjoint<K, R>(groups: seq<Group<K, R>>) {
    forall a, b, k :: 0 <= a < |groups| && 0 <= b < |groups| && k in groups[a].members && k in groups[b].members ==> a == b
  }

  /** When the groups are disjoint, as the clustering engine's partition is,
      each key's row carries its own group's representative. */
  lemma OwnRepresentative<K, R>(groups: seq<Group<K, R>>, i: nat, g: nat)
    requires KeysDisjoint(groups)
    requires i < |SanitizeRows(groups)| && g < |groups|
    requires SanitizeRows(groups)[i].key in groups[g].members
    ensures SanitizeRows(groups)[i].value == groups[g].rep
  {
    RowFromItsGroup(groups, i);
  }

  /** Taking one more group adds that group's rows at the end. */
  lemma SanitizeRowsExtend<K, R>(groups: seq<Group<K, R>>, gi: nat)
    requires gi < |groups|
    ensures SanitizeRows(groups[..gi + 1]) == SanitizeRows(groups[..gi]) + GroupRows(groups[gi])
  {
    SanitizeRowsAppend(groups[..gi], [groups[gi]]);
    assert groups[..gi + 1] == groups[..gi] + [groups[gi]];
    assert SanitizeRows([groups[gi]]) == GroupRows(groups[gi]) + SanitizeRows([groups[gi]][1..]);
  }

  /** The `ValueError` pandas raises when the data's column labels are
      assigned to a table that never received a row, and so has no columns. */
  datatype SanitizeError = ColumnLengthMismatch

  /** `_sanitize_data` once the groups are known, for data with `width`
      columns: the sanitized table, unless no row was written while the data
      has columns, in which case relabelling the empty table fails. */
  function Sanitized<K, R>(groups: seq<Group<K, R>>, width: nat): (r: Result<seq<Row<K, R>>, SanitizeError>)
    ensures r.Failure? <==> TotalSize(groups) == 0 && width > 0
    ensures r.Success? ==> r.value == SanitizeRows(groups)
    ensures r.Success? ==> |r.value| > 0 || width == 0
  {
    if TotalSize(groups) == 0 && width > 0 then Failure(ColumnLengthMismatch)
    else Success(SanitizeRows(groups))
  }

  /** The row-by-row loop of the source followed by the relabelling of the
      columns: the rows appended are exactly the sanitized table, and an
      empty table fails to take `width > 0` labels. */
  method SanitizeData<K, R>(groups: seq<Group<K, R>>, width: nat) returns (r: Result<seq<Row<K, R>>, SanitizeError>)
    ensures r == Sanitized(groups, width)
  {
    var rows := [];
    var gi := 0;
    while gi < |groups|
      invariant 0 <= gi <= |groups|
      invariant rows == SanitizeRows(groups[..gi])
    {
      var group := groups[gi];
      var mi := 0;
      while mi < |group.members|
        invariant 0 <= mi <= |group.members|
        invariant rows == SanitizeRows(groups[..gi]) + GroupRows(group)[..mi]
      {
        rows := rows + [Row(group.members[mi], group.rep)];
        mi := mi + 1;
      }
      assert GroupRows(group)[..mi] == GroupRows(group);
      SanitizeRowsExtend(groups, gi);
      gi := gi + 1;
    }
    assert groups[..gi] == groups;
    if |rows| == 0 && width > 0 {
      return Failure(ColumnLengthMismatch);
    }
    r := Success(rows);
  }
}

=== FILE: selection.dfy ===
/** Choosing the best metric learner (`_find_Metric_Leaning` in
    framework/framework.py): every candidate is trained and scored, and the
    candidate at `losses.index(min(losses))` wins. Loss values are abstract;
    `lt` is the `<` that Python's `min` compares them with. Training,
    sanitizing with the trained metric and scoring are not modelled:
    `loss` gives each candidate's score. */
module Selection {
  import opened Wrappers

  /** A name for one transitivity step between positions `i`, `j` and `l`
      of `s`. Transitivity below is instantiated only at a named step, so
      that it does not fire on every pair of comparisons in scope;
      `LtTransitive` names the step. */
  ghost predicate Step<T>(s: seq<T>, lt: (T, T) -> bool, i: int, j: int, l: int) {
    true
  }

  /** `lt` behaves as a strict total order on the values of `s`: no value is
      below itself, it is transitive, and two different values are ordered
      one way or the other. Floating-point losses meet this unless one is NaN. */
  ghost predicate StrictTotalOn<T>(s: seq<T>, lt: (T, T) -> bool) {
    && (forall i {:trigger lt(s[i], s[i])} :: 0 <= i < |s| ==> !lt(s[i], s[i]))
    && (forall i, j, l {:trigger Step(s, lt, i, j, l)} ::
          0 <= i < |s| && 0 <= j < |s| && 0 <= l < |s| && lt(s[i], s[j]) && lt(s[j], s[l]) ==> lt(s[i], s[l]))
    && (forall i, j {:trigger lt(s[i], s[j])} :: 0 <= i < |s| && 0 <= j < |s| && s[i] != s[j] ==> lt(s[i], s[j]) || lt(s[j], s[i]))
  }

  /** `lt` is a strict total order on all values. */
  ghost predicate StrictTotalOrder<T(!new)>(lt: (T, T) -> bool) {
    && (forall x :: !lt(x, x))
    && (forall x, y, z :: lt(x, y) && lt(y, z) ==> lt(x, z))
    && (forall x, y :: x != y ==> lt(x, y) || lt(y, x))
  }

  /** A strict total order is one on the values of every sequence. */
  lemma StrictTotalOrderOn<T(!new)>(s: seq<T>, lt: (T, T) -> bool)
    requires StrictTotalOrder(lt)
    ensures StrictTotalOn(s, lt)
  {
  }

  /** One transitivity step of `lt` between positions `i`, `j` and `l` of `s`. */
  lemma LtTransitive<T>(s: seq<T>, lt: (T, T) -> bool, i: nat, j: nat, l: nat)
    requires StrictTotalOn(s, lt)
    requires i < |s| && j < |s| && l < |s|
    requires lt(s[i], s[j]) && lt(s[j], s[l])
    ensures lt(s[i], s[l])
  {
    assert Step(s, lt, i, j, l);
  }

  /** Python's `min` over the first `n` losses: scan left to right and keep
      the current value unless a later one is strictly smaller. */
  function MinLoss<T>(s: seq<T>, lt: (T, T) -> bool, n: nat): (m: T)
    requires 0 < n <= |s|
    requires StrictTotalOn(s, lt)
    ensures m in s[..n]
    ensures forall i :: 0 <= i < n ==> !lt(s[i], m)
  {
    if n == 1 then s[0]
    else
      var best := MinLoss(s, lt, n - 1);
      if lt(s[n - 1], best) then
        assert forall i :: 0 <= i < n - 1 ==> !lt(s[i], s[n - 1]) by {
          var k :| 0 <= k < n - 1 && s[k] == best;
          forall i | 0 <= i < n - 1
            ensures !lt(s[i], s[n - 1])
          {
            if lt(s[i], s[n - 1]) {
              LtTransitive(s, lt, i, n - 1, k);
            }
          }
        }
        s[n - 1]
      else
        assert s[..n - 1] <= s[..n];
        best
  }

  /** Python's `list.index`: the first position holding `v`. */
  function IndexOf<T(==)>(s: seq<T>, v: T): (i: nat)
    requires v in s
    ensures i < |s| && s[i] == v
    ensures forall j :: 0 <= j < i ==> s[j] != v
  {
    if s[0] == v then 0 else 1 + IndexOf(s[1..], v)
  }

  /** `losses.index(min(losses))`: the first position whose loss no other
      loss undercuts; every earlier position holds a strictly larger loss. */
  function BestModelIndex<T(==)>(losses: seq<T>, lt: (T, T) -> bool): (b: nat)
    requires |losses| > 0
    requires StrictTotalOn(losses, lt)
    ensures b < |losses|
    ensures forall j :: 0 <= j < |losses| ==> !lt(losses[j], losses[b])
    ensures forall j :: 0 <= j < b ==> lt(losses[b], losses[j])
  {
    IndexOf(losses, MinLoss(losses, lt, |losses|))
  }

  /** The chosen position is the only one that is minimal and preceded by
      strictly larger losses only. */
  lemma BestModelIndexUnique<T>(losses: seq<T>, lt: (T, T) -> bool, i: nat)
    requires |losses| > 0
    requires StrictTotalOn(losses, lt)
    requires i < |losses|
    requires forall j :: 0 <= j < |losses| ==> !lt(losses[j], losses[i])
    requires forall j :: 0 <= j < i ==> lt(losses[i], losses[j])
    ensures i == BestModelIndex(losses, lt)
  {
  }

  /** The failure Python's `min` raises on an empty candidate list. */
  datatype SelectionError = NoCandidates

  /** Each candidate's loss, in candidate order. */
  function Losses<L, T>(learners: seq<L>, loss: L -> T): (s: seq<T>)
    ensures |s| == |learners|
    ensures forall i :: 0 <= i < |learners| ==> s[i] == loss(learners[i])
  {
    if |learners| == 0 then [] else [loss(learners[0])] + Losses(learners[1..], loss)
  }

  /** `_find_Metric_Leaning`'s choice over the list of losses: the first
      position of the minimal loss, or the failure `min` raises when there
      are no candidates. */
  function SelectLearner<T(==)>(losses: seq<T>, lt: (T, T) -> bool): (r: Result<nat, SelectionError>)
    requires StrictTotalOn(losses, lt)
    ensures |losses| == 0 <==> r == Failure(NoCandidates)
    ensures r.Success? ==> r.value < |losses|
    ensures r.Success? ==> forall j :: 0 <= j < |losses| ==> !lt(losses[j], losses[r.value])
    ensures r.Success? ==> forall j :: 0 <= j < r.value ==> lt(losses[r.value], losses[j])
  {
    if |losses| == 0 then Failure(NoCandidates) else Success(BestModelIndex(losses, lt))
  }

  /** The learner at the selected position of the candidates' losses. */
  function ChosenLearner<L, T(==)>(learners: seq<L>, loss: L -> T, lt: (T, T) -> bool): Result<L, SelectionError>
    requires StrictTotalOn(Losses(learners, loss), lt)
  {
    var s := SelectLearner(Losses(learners, loss), lt);
    if s.Failure? then Failure(NoCandidates) else Success(learners[s.value])
  }

  /** The candidate loop itself: score each learner in turn, then return
      the learner at the first minimal loss. */
  method FindMetricLearning<L, T(==)>(learners: seq<L>, loss: L -> T, lt: (T, T) -> bool)
    returns (r: Result<L, SelectionError>)
    requires StrictTotalOn(Losses(learners, loss), lt)
    ensures r == ChosenLearner(learners, loss, lt)
  {
    var results: seq<T> := [];
    var i := 0;
    while i < |learners|
      invariant 0 <= i <= |learners|
      invariant |results| == i
      invariant forall j :: 0 <= j < i ==> results[j] == loss(learners[j])
    {
      results := results + [loss(learners[i])];
      i := i + 1;
    }
    if |results| == 0 {
      return Failure(NoCandidates);
    }
    assert results == Losses(learners, loss);
    var b := BestModelIndex(results, lt);
    r := Success(learners[b]);
  }
}

=== FILE: wrappers.dfy ===
/** Failure-carrying results shared by every module of the model. The
    source raises Python exceptions; here each raising path returns a
    `Failure` naming the exception instead. */
module Wrappers {

  /** Either a computed value or the error the source would raise. */
  datatype Result<+T, +E> = Success(value: T) | Failure(error: E)
}
